=== FILE: README.md ===
# A Dafny model of the sctp-ustack client core

sctp-ustack is a small SCTP client written in C++. It runs over a raw IPv4
socket and implements part of RFC 4960:

- it opens associations with an INIT;
- it answers the INIT ACK with a COOKIE ECHO carrying the state cookie;
- it counts the DATA it receives and acknowledges every second DATA chunk
  with a SACK;
- it answers a SHUTDOWN with a SHUTDOWN ACK.

A single receive loop hands each datagram to the association named by its
destination port. Once a second it clears the byte counters of the first
ten associations.

This project models the byte-level core of that client:

- the `packet_buffer_t` cursor;
- the packed wire structs and the chunk type codes;
- checksum insertion;
- the four packet builders of `connection_t`;
- the INIT ACK parameter walk and the chunk walk of `decode_packet`;
- the per-chunk handlers;
- the port routing and counter reset of `sctp_t::read_loop`.

Everything is modelled as pure functions over octet sequences. The proofs
are about this model.

Modules, one file each:

| module | models |
|---|---|
| `Bytes` (bytes.dfy) | octets, `htons`/`htonl` as big-endian codecs, conversion of `int` to the unsigned widths |
| `Wire` (wire.dfy) | the structs of sctp_defs.h as datatypes with their octet images and parsers, the field offsets, the chunk type codes |
| `Cursor` (cursor.dfy) | `packet_buffer_t`: 10240 octets and a cursor; `get`, `skip`, `get_ptr`, `reset`; struct member stores and loads at the cursor |
| `Checksum` (checksum.dfy) | `insert_crc32`, with the CRC32c function passed in as a parameter |
| `Association` (association.dfy) | `connection_t` state, `fill_common_pars`, `send_buf`, `connect` (the encoding half), `send_cookie_echo`, `send_sack`, `shutdown` |
| `Inbound` (inbound.dfy) | `decode_init_ack`, `decode_data`, the `switch` of `decode_packet` and its chunk walk |
| `Params` (params.dfy) | a reference description of INIT ACK parameter lists, and proofs that the parameter walk reads it |
| `Chunks` (chunks.dfy) | a reference description of received chunk lists and of the association's answer to each chunk, and proofs that the chunk walk does exactly that |
| `Handshake` (handshake.dfy) | the INIT ACK step and the packets sent, stated on the wire |
| `Dispatch` (dispatch.dfy) | `connections[1024]`, `recvfrom` into the shared buffer, port routing, the counter reset, `sctp_t::connect` |
| `Findings` (findings.dfy) | the C++ loops and indexing exactly as written, next to the inputs that break them |
| `Outcomes` (outcomes.dfy) | `Option` and `Result` |

Conventions:

- **Packets as images.** Each packet is built the way the C++ builds it: by
  member stores through the cursor into a fresh buffer. The stack buffer is
  not cleared, so the builders take its initial octets as the parameter
  `memory`. Each contract proves that the packet sent equals the sealed
  concatenation of the header and chunk images, whatever `memory` held.
- **Errors instead of crashes.** Where the C++ would loop for ever, index
  out of bounds, copy past a buffer or read an uninitialised length, the
  model returns an error or requires the input away. `Findings` shows the
  C++ behaviour alongside.
- **The model follows the code**, with one exception: a parameter length
  below 4 is refused, because section 3.2.1 of RFC 4960 counts the 4-octet
  parameter header in the length, even where the C++ would carry on (see
  `Inbound.ReadParam` under "Left out").
  - The verification tag is taken from the INIT ACK's initiate tag field
    (s.cc:89), not from its initial TSN.
  - The SACK cadence is every second DATA chunk (s.cc:133).
  - There are no worker threads or queues: `read_loop` decodes inline
    (s.cc:218).
  - A decoding error does not undo the effects of the chunks handled before
    it: the C++ has already sent their replies.
- **Reads past the datagram.** The chunk and parameter walks read from the
  whole 10240-octet buffer, as the C++ does: a declared length, or padding
  left unskipped, makes them read whatever an earlier datagram left behind
  the current one. Only a read past the array itself is refused, with
  `PastBuffer`.

## Model

| member | source | states |
|---|---|---|
| Bytes.FromBe16 | s.cc:76-78 | reading two octets as `ntohs` gives the value whose high octet is the first and low octet the second |
| Bytes.Be16 | s.cc:40-41 | the `htons` image is two octets that read back as the value |
| Bytes.Be32 | s.cc:179-182 | the `htonl` image is four octets that read back as the value |
| Bytes.Be16OfFromBe16 | s.cc:145 | decoding two octets and re-encoding them gives the same octets |
| Bytes.Be32OfFromBe32 | s.cc:179-183 | decoding four octets and re-encoding them gives the same octets |
| Bytes.Be16Injective | s.cc:40-41 | two 16-bit values have the same wire image exactly when they are equal |
| Bytes.Be32Injective | s.cc:182 | two 32-bit values have the same wire image exactly when they are equal |
| Bytes.ToU16 | s.cc:40-41 | storing an `int` port in a `uint16_t` field keeps it modulo 2^16, and keeps it unchanged when it fits |
| Bytes.ToU32 | s.cc:182 | storing `100 + local_port` in a `uint32_t` keeps it modulo 2^32, and keeps it unchanged when it fits |
| Wire.KindOf | sctp_defs.h:46-54 | the type octet is classified as the named kind whose code it is, and as unknown exactly when it is none of the nine codes |
| Wire.KindOfCodeOf | sctp_defs.h:46-54 | every kind is recovered from its code |
| Wire.CodesDistinct | sctp_defs.h:46-54 | two kinds have the same code exactly when they are the same kind |
| Wire.CommonHeaderBytes | sctp_defs.h:3-9 | the common header is 12 octets: source port at 0, destination port at 2, tag at 4, checksum at 8 |
| Wire.CommonHeaderRoundTrip | sctp_defs.h:3-9 | parsing a common header image gives the header back |
| Wire.ParseCommonHeader | sctp_defs.h:3-9 | the header parsed from 12 or more octets has those 12 octets as its image |
| Wire.ChunkHeaderBytes | sctp_defs.h:12-16 | the chunk header is 4 octets: type at 0, flags at 1, length at 2 |
| Wire.ChunkHeaderRoundTrip | sctp_defs.h:12-16 | parsing a chunk header image gives the header back |
| Wire.InitChunkBytes | sctp_defs.h:19-26 | the INIT fixed part is 20 octets: initiate tag at 4, window at 8, outbound streams at 12, inbound streams at 14, initial TSN at 16 |
| Wire.InitChunkRoundTrip | sctp_defs.h:19-26 | parsing an INIT image gives the chunk back |
| Wire.SackChunkBytes | sctp_defs.h:28-34 | the SACK fixed part is 16 octets: cumulative TSN at 4, window at 8, gap count at 12, duplicate count at 14 |
| Wire.SackChunkRoundTrip | sctp_defs.h:28-34 | parsing a SACK image gives the chunk back |
| Wire.DataPrefixBytes | sctp_defs.h:36-39 | the DATA prefix read is 8 octets with the TSN at 4 |
| Wire.DataPrefixRoundTrip | sctp_defs.h:36-39 | parsing a DATA prefix image gives it back |
| Cursor.Fresh | sctp_defs.h:56-63 | a new buffer has its cursor at 0 and keeps whatever octets the memory held |
| Cursor.Get | sctp_defs.h:65-67 | `get()` addresses the octets from the cursor to the end of the array |
| Cursor.Skip | sctp_defs.h:69-71 | `skip(n)` moves the cursor by exactly `n` and changes no octet |
| Cursor.GetPtr | sctp_defs.h:73-75 | `get_ptr()` returns the cursor, which lies within the array |
| Cursor.Reset | sctp_defs.h:77-79 | `reset()` puts the cursor at 0 and changes no octet |
| Cursor.Store | sctp_defs.h:65-67 | a member store through `get()` puts exactly its octets at cursor plus offset, and leaves every other octet and the cursor alone |
| Cursor.Load | sctp_defs.h:65-67 | a member load through `get()` returns the `n` octets at cursor plus offset |
| Cursor.LoadStore | sctp_defs.h:65-67 | a store read back returns the stored octets |
| Cursor.LoadStoreApart | sctp_defs.h:65-67 | a store leaves every load that does not overlap it unchanged |
| Cursor.LoadImage | sctp_defs.h:65-67 | a member load from a struct image at the cursor reads the member's octets of the image |
| Cursor.StoreMembers | s.cc:98-105 | after disjoint member stores into one struct, every member holds its octets and nothing outside the struct changes |
| Cursor.StoreMembersHold | s.cc:98-105 | the struct read back after its member stores holds every member |
| Cursor.SkipSkip | sctp_defs.h:69-71 | two skips are one skip by the sum |
| Cursor.ResetSkip | sctp_defs.h:69-79 | a reset forgets any earlier skip |
| Checksum.InsertCrc | s.cc:17-26 | `insert_crc32` puts the big-endian CRC of the first `length` octets, with the checksum field zeroed, into octets 8 to 11, and changes no other octet |
| Checksum.InsertCrcIgnoresOldChecksum | s.cc:22-23 | the result does not depend on what the checksum field held before |
| Checksum.InsertCrcIdempotent | s.cc:17-26 | inserting the checksum twice gives the same packet as inserting it once |
| Checksum.InsertCrcPrefix | s.cc:46-49 | checksumming the first `leno` octets of the buffer and sending those octets gives the sealed packet of those octets |
| Checksum.SealKeeps | s.cc:22-24 | sealing changes nothing outside the checksum field |
| Checksum.SealedIsValid | s.cc:22-24 | a sealed packet passes the RFC 4960 section 6.8 checksum test |
| Checksum.ZeroChecksumAgree | s.cc:22-23 | packets that differ only in the checksum field zero to the same octets |
| Checksum.SealAgree | s.cc:22-24 | packets that differ only in the checksum field seal to the same packet |
| Association.FillCommonPars | s.cc:38-44 | ports and tag are stored big-endian at the cursor, octets outside the header are untouched, and the cursor moves 12 on |
| Association.SendBuf | s.cc:46-50 | exactly the octets before the cursor are sent, sealed |
| Association.InitStoresImage | s.cc:174-183 | the member stores of `connect` leave the INIT image in the struct |
| Association.InitStoresFit | s.cc:174-183 | the INIT member stores are disjoint and lie within the 20-octet struct |
| Association.InitBuffer | s.cc:171-185 | after `connect`'s stores and skips, the 32 octets before the cursor are the header and INIT images, except for the checksum field |
| Association.Connect | s.cc:161-189 | `connect` sets the ports, keeps tag and counters, and sends the sealed 32-octet INIT of the current header, whatever the stack buffer held |
| Association.CookieEchoBuffer | s.cc:52-62 | after `send_cookie_echo`'s stores and copy, the octets before the cursor are the header, the COOKIE ECHO header and the cookie |
| Association.CookieEchoStores | s.cc:56-61 | the chunk header and the copied cookie lie side by side, and nothing before them changes |
| Association.SendCookieEcho | s.cc:52-65 | `send_cookie_echo` sends the sealed COOKIE ECHO packet of `16 + cookie_len` octets, whatever the stack buffer held |
| Association.SackStoresImage | s.cc:98-105 | the member stores of `send_sack` leave the SACK image in the struct |
| Association.SackBuffer | s.cc:94-106 | after `send_sack`'s stores and skips, the octets before the cursor are the header and SACK images |
| Association.SendSack | s.cc:94-109 | `send_sack` sends the sealed 28-octet SACK packet, whatever the stack buffer held |
| Association.ShutdownAckBuffer | s.cc:111-120 | after `shutdown`'s stores and skips, the octets before the cursor are the header and SHUTDOWN ACK images |
| Association.SendShutdownAck | s.cc:111-123 | `shutdown` sends the sealed 16-octet SHUTDOWN ACK packet, whatever the stack buffer held |
| Association.ChunkHeaderStores | s.cc:56-59 | the three member stores of a chunk header leave its image at the cursor and change nothing else |
| Association.Emit | s.cc:91 | sending a reply calls the sender for its kind and produces that reply's packet |
| Association.ReplyChecksumValid | s.cc:46-50 | every packet the association sends passes the receiver's checksum test |
| Inbound.ReadParam | s.cc:76-86 | one parameter: the cursor moves by its declared length; a type-7 value is kept as the cookie; any other parameter of length at least 4 is skipped however long it is; lengths below 4, cookies over 32768 octets, and headers or cookie values past the buffer are errors |
| Inbound.WalkParams | s.cc:74-87 | the walk returns its start when there is nothing to walk; otherwise it ends at least `len` octets past its start; a new cookie fits the cookie array and lies inside the buffer, before the end cursor |
| Inbound.InitAckParams | s.cc:68-74 | the parameter walk starts 20 octets into the INIT ACK, covers its declared length less 20, and any cookie it finds fits a COOKIE ECHO |
| Inbound.DecodeInitAck | s.cc:67-92 | on success the tag becomes the initiate tag octets, the cursor is left after the parameters, and one COOKIE ECHO with the last cookie is sent; without a cookie it fails |
| Inbound.DecodeData | s.cc:128-137 | `total_data` grows by the declared length; the counter steps, and when it passes 1 it resets and one SACK of the chunk's TSN octets is sent; the TSN must lie in the buffer only when that SACK is due |
| Inbound.Step | s.cc:143-154 | one turn reads a chunk header; a header past the buffer and a zero length are errors, and every other chunk but an INIT ACK is handled, whatever its length, once its header (for DATA due a SACK, its TSN too) lies in the buffer, and a DATA chunk due a SACK whose TSN does not is refused with `PastBuffer`; the ports are kept, the byte count only grows, and the SACK counter stays in {0, 1} |
| Inbound.StepHandles | s.cc:147-154 | SHUTDOWN sends one SHUTDOWN ACK; DATA counts and SACKs; INIT ACK adopts the tag and sends one COOKIE ECHO; every other kind has no effect |
| Inbound.WalkChunks | s.cc:142-158 | the chunk walk keeps the ports, never lowers the byte count, keeps the SACK counter in {0, 1}, does nothing when `tot <= 0`, and when no error stops it ends at least `tot` octets past the start |
| Inbound.DecodePacket | s.cc:139-159 | `decode_packet` skips the 12-octet common header and does nothing for a packet without chunks |
| Inbound.WalkTurn | s.cc:143-157 | one turn of the chunk walk and the rest of the loop keep the ports, never lower the byte count, keep the SACK counter in {0, 1}, and never move the cursor back; when no error stops them they end at least `tot` octets past the start |
| Params.ParamBytes | s.cc:76-79 | a parameter image is type, length covering the 4-octet header, then value |
| Params.ParamAt | s.cc:76-79 | a parameter image at the cursor reads back as its type, its length and its value |
| Params.LastCookie | s.cc:81-84 | the cookie kept is the value of some type-7 parameter, or the cookie before when there is none |
| Params.LastCookieIsLast | s.cc:81-84 | when several type-7 parameters appear, the last one wins |
| Params.Kept | s.cc:81-84 | a type-7 parameter replaces the kept cookie; any other keeps it |
| Params.ReadParamImage | s.cc:76-86 | a parameter image at the cursor is read as one turn that moves past it and keeps its value if it is a cookie |
| Params.WalkParamsStep | s.cc:75-87 | one parameter image moves the walk past it and lowers `len` by its length |
| Params.WalkParamsTurn | s.cc:75-87 | one parameter read is one turn of the walk |
| Params.WalkParamsImage | s.cc:74-87 | over an unpadded, well-formed list the walk ends exactly after the list and keeps its last cookie |
| Params.WalkParamsDone | s.cc:75 | with nothing left to walk, the cursor and the cookie stay |
| Params.PaddedParamsRefused | s.cc:85-86 | padding is not skipped: a value padded with three octets, followed by a parameter of type below 256, is refused |
| Params.PadTwoMisreads | s.cc:76-86 | two padding octets read as a parameter of type 0 whose length is the next parameter's type, which the walk skips rather than refuses |
| Params.PadReadsZeroLength | s.cc:78 | three padding octets before such a parameter read as a length of 0 |
| Params.WalkParamsRefused | s.cc:78-86 | a parameter length below 4 stops the walk with an error |
| Chunks.ChunkBytes | s.cc:144-145 | a chunk image is its header, with a length covering the header, then its value |
| Chunks.Respond | s.cc:147-154 | the reference answer to one chunk keeps ports and tag, counts DATA octets, and keeps the SACK counter in {0, 1} |
| Chunks.RespondAll | s.cc:143-158 | the reference answer to a chunk list counts exactly the DATA octets and sends every reply from the state's header |
| Chunks.ChunkAt | s.cc:144-145 | a chunk image at the cursor reads back as its kind, its length and its TSN |
| Chunks.StepImage | s.cc:143-154 | one turn over a chunk image does what the reference answer does and leaves the cursor at the chunk |
| Chunks.WalkChunksTurn | s.cc:143-158 | a turn that leaves the cursor in place sends the chunk's replies, then those of the walk after it |
| Chunks.WalkChunksLast | s.cc:156-157 | the turn whose length uses up `tot` ends the walk without error, after `skip(len)` |
| Chunks.WalkChunksFirst | s.cc:143-158 | a walk that starts at a chunk image sends that chunk's replies first |
| Chunks.WalkChunksImage | s.cc:143-158 | over an image of a chunk list the walk ends right after the list, without error, in the reference state, having sent exactly the reference replies |
| Chunks.PaddingReadsAsData | s.cc:143-156 | three zero padding octets read as a DATA chunk header whose length is the octet after them: a zero there stops the walk, anything else is handled as DATA |
| Chunks.TrailingPaddingSacks | s.cc:128-157 | a DATA chunk padded with three octets at the end of a packet is followed by a phantom DATA chunk read from stale octets: with the counter at 0, the pair is SACKed with the stale TSN |
| Chunks.DataWithoutSackNeedsHeader | s.cc:128-157 | a DATA chunk read while no SACK is due, whose length uses up `tot`, is counted and skipped with nothing sent, reading only its 4-octet header |
| Chunks.DataHeaderAtBufferEnd | s.cc:128-157 | a DATA header of length 4 in the last four octets of the buffer, with the counter at 0 and `tot` 4, is counted and ends the walk cleanly at the end of the buffer |
| Chunks.DecodePacketImage | s.cc:139-158 | the same for a whole packet, whatever its common header holds: tag and checksum are never checked |
| Chunks.SackCounter | s.cc:132-136 | over `n` DATA chunks the SACK counter ends at `(sck + n) mod 2` |
| Chunks.SackCadence | s.cc:128-137 | over `n` DATA chunks, `(sck + n) / 2` SACKs are sent, the k-th carrying the TSN of chunk `2k + 1 - sck` |
| Chunks.SackCadenceStep | s.cc:132-136 | the SACKs of a run follow the cadence once those of its tail do, from the flipped counter |
| Chunks.SacksForCons | s.cc:132-136 | the SACK of the first chunk, if any, followed by the SACKs of the rest follow the cadence |
| Chunks.RespondData | s.cc:132-136 | one DATA chunk flips the counter, and the chunk that brings it to 2 is answered by a SACK of its TSN |
| Handshake.InitChunkAt | s.cc:68-69 | an INIT ACK image at the cursor reads back as its type, its length and its initiate tag |
| Handshake.InitAckFields | s.cc:67-87 | the INIT ACK image reads back as its fields, and the parameter walk ends after it with its last cookie |
| Handshake.InitAckParamsWalk | s.cc:69-74 | the parameter walk covers the declared length less the 20-octet fixed part |
| Handshake.InitAckStep | s.cc:67-92 | an INIT ACK makes its initiate tag the verification tag and sends one COOKIE ECHO with the last cookie; the cursor is left after the parameters |
| Handshake.DecodedInitAck | s.cc:67-92 | once the parameter walk has found a cookie, `decode_init_ack` adopts the initiate tag octets, leaves the cursor where the walk ended and sends one COOKIE ECHO with that cookie |
| Handshake.InitAckTurn | s.cc:144-148 | an INIT ACK chunk whose parameter walk finds a cookie is one turn of the chunk loop with that tag, cursor and COOKIE ECHO |
| Handshake.SelfSkippingTurn | s.cc:148-157 | a chunk whose handler already moved the cursor one length on, and whose length uses up `tot`, ends the walk two lengths on |
| Handshake.LoneInitAck | s.cc:148-157 | a lone INIT ACK ends the walk without error, but the cursor is two chunk lengths on, because `skip(len)` advances it again |
| Handshake.ConnectSendsInit | s.cc:171-189 | a fresh association sends 32 octets: its ports, tag 0, INIT type 1 with length 20, window 100000, 10 and 65535 streams, initiate tag and TSN `100 + local_port`, and a valid checksum |
| Handshake.HeaderOfSealed | s.cc:38-44 | a packet starting with the association's header parses back to its ports and tag |
| Handshake.CookieEchoCarries | s.cc:52-65 | the COOKIE ECHO is `16 + cookie_len` octets: the association's header, type 10, flags 0, length `4 + cookie_len`, the cookie octet for octet, and a valid checksum |
| Handshake.SackCarries | s.cc:94-109 | the SACK is 28 octets: the association's header, type 3, length 16, the TSN octets as received, window 100000, no gaps, no duplicates, and a valid checksum |
| Handshake.ShutdownAckCarries | s.cc:111-123 | the SHUTDOWN ACK is 16 octets: the association's header, type 8, length 4, and a valid checksum |
| Handshake.CookieEchoAnswersInitAck | s.cc:89-91 | the COOKIE ECHO sent for an INIT ACK carries its initiate tag and its last cookie |
| Dispatch.Receive | s.cc:211-213 | the datagram lands at the start of the buffer with the cursor at 0, cut to 10240 octets; the rest of the buffer keeps older octets; a failure returns -1 |
| Dispatch.Route | s.cc:214-218 | the packet goes to the entry named by its destination port, exactly when that port is within the table; no other entry changes; that entry keeps its ports and its counters only grow; a datagram too short for a chunk changes nothing |
| Dispatch.ReadOne | s.cc:211-218 | the entry routed to is the one named by octets 22 and 23 of the datagram |
| Dispatch.RouteImage | s.cc:216-218 | a packet of plain chunks reaches its port's entry, which answers as the reference says |
| Dispatch.ReceiveWhole | s.cc:213-214 | a datagram that fits lands whole, and the cursor past the IP header sees the packet |
| Dispatch.DeliverImage | s.cc:211-218 | the same for a whole datagram, IP header first |
| Dispatch.ResetCounters | s.cc:223-226 | the byte counters of entries 0 to 9 are cleared and nothing else changes |
| Dispatch.ClearCounters | s.cc:223-226 | the loop as written clears the byte counters of entries 0 to 9 and changes nothing else |
| Dispatch.ResetCountersIdempotent | s.cc:223-226 | clearing twice is clearing once |
| Dispatch.Absorb | s.cc:210-227 | one loop turn keeps all ports, only extends the replies sent, never lowers the counters of entries 10 and up, and clears those of entries 0 to 9 when a new second began |
| Dispatch.ReadLoop | s.cc:206-230 | over any run of datagrams the ports stay, the replies only grow, and the counters of entries 10 and up never fall |
| Dispatch.Open | s.cc:201-204 | `sctp_t::connect` sends the INIT of the entry at `local_port` and changes no other entry |
| Findings.IndexAsWritten | s.cc:216-218 | the index `read_loop` uses is the unchecked 16-bit destination port from octets 22 and 23 |
| Findings.PortProbe | s.cc:216-217 | a minimal datagram carries the given destination port at octets 22 and 23 |
| Findings.PortBeyondTable | s.cc:216-218 | a packet to port 5000 makes the C++ index past `connections[1024]`; the corrected routing refuses it |
| Findings.ChunkLoopAsWritten | s.cc:143-158 | the chunk loop as written moves the cursor exactly as far as `tot` falls; when it exits with chunks to read it has moved forward; a read past the array is told apart from an exit |
| Findings.ZeroChunkLengthSpins | s.cc:143-158 | a chunk other than an INIT ACK of length 0 keeps the C++ loop from ever ending |
| Findings.ShortParamMisaligns | s.cc:75-87 | a non-cookie parameter of length 3 moves the C++ cursor into its own header, where the loop exits; the corrected walk refuses it |
| Findings.ZeroChunkLengthStops | s.cc:143-158 | the corrected walk stops at once on it, with no effect |
| Findings.PaddedDataSpins | s.cc:143-158 | a DATA chunk padded with three octets and followed by another DATA chunk reads as a zero chunk length, and the C++ loop never ends |
| Findings.PaddedDataStops | s.cc:143-158 | the corrected walk handles the padded chunk and then stops with `ZeroChunkLength` |
| Findings.PaddedChunkAt | s.cc:144-145 | the header read right after a chunk padded so has length 0 |
| Findings.ParamTurnAsWritten | s.cc:76-86 | one parameter as written moves the cursor by `opt_len`, whatever it is, and lowers `len` by the same amount |
| Findings.CookieCopyAsWritten | s.cc:81-83 | the `memcpy` length for a type-7 parameter is `opt_len - 4`, which may be negative |
| Findings.ParamLoopAsWritten | s.cc:75-87 | the parameter loop as written moves the cursor exactly as far as `len` falls; an exit, possibly with the cursor past the array, is told apart from a read past the array |
| Findings.ZeroParamLengthSpins | s.cc:75-87 | a parameter other than a state cookie, of length 0, sends the cursor back onto itself, so the C++ loop never ends |
| Findings.LongSkipExits | s.cc:75-87 | a last parameter of length 65535 four octets before the array's end: the C++ loop and the corrected walk both exit with the cursor at 75771, past the array |
| Findings.ShortCookieCopiesNegative | s.cc:81-83 | a type-7 parameter of length 2 makes the copy length -2 |
| Findings.ShortParamRefused | s.cc:78-86 | the corrected read refuses every length below 4 |
| Findings.LongCookieOverflows | s.cc:70-83 | a type-7 parameter of length 40000 copies 39996 octets into the 32768-octet array |
| Findings.LongCookieRefused | s.cc:70-83 | the corrected read refuses any cookie longer than the array |

## Left out

- Sockets are not modelled: `socket`, `sendto`, `recvfrom`, the `sockaddr` setup and `gethostbyname` (s.cc:46-50, 161-169, 197-199, 207-213) are operating-system I/O. A sent packet is the octet sequence returned. A received datagram is a `Received` value.
- `generate_crc32c` comes from crc.h, which is not part of this model. It is the parameter `crc` of every sending operation.
- `printf` logging is not modelled (s.cc:80, 112, 151-153, 224).
- The clock of the once-a-second report (s.cc:209, 220-222) becomes the `newSecond` flag of each `Tick`.
- `main` and its fixed hosts and ports (s.cc:233-246) are configuration.
- `last_tsn` (s.cc:127) is never written and is left out. So are the socket handle and peer address of `connection_t` (s.cc:32-33).
- The IPv4 header is taken to be exactly 20 octets, as the C++ assumes (s.cc:214). IP options are not modelled.
- Cursor.Skip: requires the cursor to stay within the 10240-octet array. The C++ `skip` has no bound, and the undefined behaviour past the array is not modelled.
- Inbound.ReadParam: a non-cookie parameter of length 1 to 3 is refused with `BadParameterLength`, since section 3.2.1 of RFC 4960 counts the 4-octet header in the length; the C++ moves the cursor by that length into the parameter's own header and reads on (`Findings.ShortParamMisaligns`). A length of 0 would make the C++ loop for ever, and a cookie of length below 4 would copy a negative length, so the one refusal covers all three.
- Inbound.ReadParam: a parameter header or state cookie value that lies past the 10240-octet array is refused with `PastBuffer`. The C++ would read outside the array.
- Inbound.DecodeInitAck: an INIT ACK without a state cookie fails with `NoCookie`. The C++ reads the uninitialised `cookie_len` (s.cc:71, 91), and that behaviour is not modelled.
- Inbound.Step: a chunk header past the 10240-octet array, or the TSN of a DATA chunk that is due a SACK, is refused with `PastBuffer`. The C++ would read outside the array. The TSN of a DATA chunk that is not due a SACK is never read, so only its header must lie in the array (`Chunks.DataHeaderAtBufferEnd`). Within the array, stale octets are read as the C++ reads them.
- Inbound.WalkChunks: a chunk length, or the double advance after an INIT ACK (s.cc:148, 156), can take the cursor past the 10240-octet array. If `tot` is then used up, the walk ends cleanly, as in the C++. Otherwise it stops with `PastBuffer`, keeping the effects so far, and later chunks are not read from outside the array.
- Inbound.DecodeData: `total_data` is an unbounded integer. The C++ `int` would overflow after 2^31 octets.
- Dispatch.Route: the datagram length `r` is trusted as `recvfrom` returns it. A failed receive (`r == -1`) is routed like any other, with the stale buffer, as in the C++.
- Findings.ChunkLoopAsWritten: the as-written loops carry a `fuel` bound. Their non-termination is stated for every fuel, not as divergence.
- Findings.ParamLoopAsWritten: as above, the loop is bounded by `fuel`.

## Findings

| source | as written | input that shows it | evidently intended | confidence | as-written member | corrected member |
|---|---|---|---|---|---|---|
| s.cc:216-218 | `connections[local_port]` is indexed with any 16-bit destination port | an SCTP packet to port 5000 on the raw socket | ignore packets to ports beyond the 1024-entry table | not executed | Findings.PortBeyondTable | Dispatch.ReadOne |
| s.cc:143-158 | the chunk loop does `skip(len)` and `tot -= len` with no check on `len`, and never skips the padding of section 3.2 of RFC 4960 | a DATA chunk padded with three zero octets, followed by another DATA chunk: the padding reads as a chunk of length 0 and the loop never ends | stop on a zero chunk length instead of looping | not executed | Findings.PaddedDataSpins | Findings.PaddedDataStops |
| s.cc:75-87 | the parameter loop skips `opt_len - 4` and lowers `len` by `opt_len`, whatever `opt_len` is | a parameter other than a state cookie whose length field is 0: the cursor steps back onto it and the loop never ends; with length 1 to 3 the cursor lands inside the parameter's own header | refuse parameter lengths below 4 | not executed | Findings.ZeroParamLengthSpins | Findings.ShortParamRefused |
| s.cc:81-83 | a state cookie is copied with length `opt_len - 4` | a type-7 parameter of length 2: copy length -2 | refuse parameter lengths below 4 | not executed | Findings.ShortCookieCopiesNegative | Findings.ShortParamRefused |
| s.cc:70-83 | the state cookie is copied into a 32768-octet stack array with the length the peer declares | a type-7 parameter of length 40000 | refuse cookies longer than the array | not executed | Findings.LongCookieOverflows | Findings.LongCookieRefused |

=== FILE: association.dfy ===
/**
  The protocol state of one association (`connection_t`) and the four
  packets it sends: INIT (`connect`), COOKIE ECHO (`send_cookie_echo`),
  SACK (`send_sack`) and SHUTDOWN ACK (`shutdown`). Each packet is built
  the way the C++ builds it, by stores through a cursor into a fresh,
  uninitialised buffer, and each contract states the finished packet as
  the sealed concatenation of the wire images of its header and chunk.
 */
module Association {
  import opened Bytes
  import opened Wire
  import opened Cursor
  import opened Checksum

  /** `connection_t` without its socket handle and peer address. The
      verification tag is held as the four raw octets it was copied from. */
  datatype Conn = Conn(
    localPort: int,
    remotePort: int,
    verification: Raw4,
    sck: int,
    totalData: int)

  /** A member of `connections[]` before `connect`: the tag, the byte
      counter and the SACK counter start at zero. */
  const Initial := Conn(0, 0, [0, 0, 0, 0], 0, 0)

  // The values the client advertises.
  const ARwnd: u32 := 100000
  const OutStreams: u16 := 10
  const InStreams: u16 := 65535
  const TsnBase := 100

  /** The common header of every packet the association sends, with the
      checksum field still zero. */
  function HeaderOf(c: Conn): CommonHeader
  {
    CommonHeader(ToU16(c.localPort), ToU16(c.remotePort), c.verification, [0, 0, 0, 0])
  }

  /** `fill_common_pars`: ports and tag are stored at the cursor, the
      checksum field is left as it was, the cursor moves past the header. */
  function FillCommonPars(c: Conn, b: PacketBuffer): (r: PacketBuffer)
    requires b.ptr + CommonHeaderSize <= Capacity
    ensures r.ptr == b.ptr + CommonHeaderSize
    ensures r.data[b.ptr..b.ptr + ChecksumOffset] == CommonHeaderBytes(HeaderOf(c))[..ChecksumOffset]
    ensures forall i :: 0 <= i < Capacity && !(b.ptr <= i < b.ptr + CommonHeaderSize) ==>
              r.data[i] == b.data[i]
  {
    var stores := [
      MemberStore(SrcPortOffset, Be16(ToU16(c.localPort))),
      MemberStore(DstPortOffset, Be16(ToU16(c.remotePort))),
      MemberStore(TagOffset, c.verification)];
    var b1 := StoreMembers(b, CommonHeaderSize, stores);
    assert Load(b1, 0, 2) == stores[0].bytes && Load(b1, 2, 2) == stores[1].bytes && Load(b1, 4, 4) == stores[2].bytes;
    assert b1.data[b.ptr..b.ptr + ChecksumOffset] == Load(b1, 0, 2) + Load(b1, 2, 2) + Load(b1, 4, 4);
    Skip(b1, CommonHeaderSize)
  }

  /** `send_buf`: checksum the octets before the cursor and send exactly those. */
  function SendBuf(crc: Crc32c, b: PacketBuffer): (p: seq<byte>)
    requires b.ptr >= CommonHeaderSize
    ensures p == Seal(crc, b.data[..b.ptr])
    ensures |p| == b.ptr
  {
    var leno := GetPtr(b);
    InsertCrcPrefix(crc, b.data, leno);
    InsertCrc(crc, b.data, leno)[..leno]
  }

  // ---------------------------------------------------------------------
  // The packets the association sends, as wire images

  /** A COOKIE ECHO carrying `cookie` octet for octet. */
  function CookieEchoPacket(crc: Crc32c, c: Conn, cookie: seq<byte>): seq<byte>
    requires ChunkHeaderSize + |cookie| < 0x1_0000
  {
    Seal(crc, CommonHeaderBytes(HeaderOf(c)) + (ChunkHeaderBytes(CookieEchoHeader(cookie)) + cookie))
  }

  /** A SACK acknowledging the TSN octets `tsn`. */
  function SackPacket(crc: Crc32c, c: Conn, tsn: Raw4): seq<byte>
  {
    Seal(crc, CommonHeaderBytes(HeaderOf(c)) + SackChunkBytes(SackFor(tsn)))
  }

  /** A bare SHUTDOWN ACK. */
  function ShutdownAckPacket(crc: Crc32c, c: Conn): seq<byte>
  {
    Seal(crc, CommonHeaderBytes(HeaderOf(c)) + ChunkHeaderBytes(ShutdownAckHeader))
  }

  // ---------------------------------------------------------------------
  // INIT

  /** The INIT chunk `connect` writes: initiate tag and initial TSN are
      both `100 + local_port`, the rest are the client's constants. */
  function InitFor(localPort: int): InitChunk
  {
    var tag := Be32(ToU32(TsnBase + localPort));
    InitChunk(ChunkHeader(InitCode, 0, InitChunkSize as u16), tag, ARwnd, OutStreams, InStreams, tag)
  }

  /** The member stores of `connect` into the `init_chunk_t`, in source
      order. The initial TSN member is assigned from the initiate tag
      member just written, so both hold the same octets. */
  function InitStores(localPort: int): seq<MemberStore>
  {
    var tag := Be32(ToU32(TsnBase + localPort));
    [ MemberStore(TypeOffset, [InitCode]),
      MemberStore(FlagsOffset, [0]),
      MemberStore(LengthOffset, Be16(ToU16(InitChunkSize))),
      MemberStore(InitARwndOffset, Be32(ARwnd)),
      MemberStore(OutStreamsOffset, Be16(OutStreams)),
      MemberStore(InStreamsOffset, Be16(InStreams)),
      MemberStore(InitiateTagOffset, tag),
      MemberStore(InitialTsnOffset, tag) ]
  }

  /** After the stores the `init_chunk_t` at the cursor is the INIT image. */
  lemma InitStoresImage(b: PacketBuffer, localPort: int)
    requires b.ptr + InitChunkSize <= Capacity
    ensures WithinStruct(b, InitChunkSize, InitStores(localPort)) && Disjoint(InitStores(localPort))
    ensures Load(StoreMembers(b, InitChunkSize, InitStores(localPort)), 0, InitChunkSize)
         == InitChunkBytes(InitFor(localPort))
  {
    InitStoresFit(b, localPort);
    StoreMembersHold(b, InitChunkSize, InitStores(localPort));
    InitImageOfStores(Load(StoreMembers(b, InitChunkSize, InitStores(localPort)), 0, InitChunkSize), localPort);
  }

  /** The INIT member stores lie inside the 20-octet struct and do not
      overlap: each member is where the packed layout puts it, whatever
      the order of the stores. */
  lemma InitStoresFit(b: PacketBuffer, localPort: int)
    requires b.ptr + InitChunkSize <= Capacity
    ensures WithinStruct(b, InitChunkSize, InitStores(localPort)) && Disjoint(InitStores(localPort))
  {
    var st := InitStores(localPort);
    assert st[0].offset == 0 && |st[0].bytes| == 1;
    assert st[1].offset == 1 && |st[1].bytes| == 1;
    assert st[2].offset == 2 && |st[2].bytes| == 2;
    assert st[3].offset == 8 && |st[3].bytes| == 4;
    assert st[4].offset == 12 && |st[4].bytes| == 2;
    assert st[5].offset == 14 && |st[5].bytes| == 2;
    assert st[6].offset == 4 && |st[6].bytes| == 4;
    assert st[7].offset == 16 && |st[7].bytes| == 4;
  }

  lemma InitImageOfStores(w: seq<byte>, localPort: int)
    requires |w| == InitChunkSize && HoldsMembers(w, InitStores(localPort))
    ensures w == InitChunkBytes(InitFor(localPort))
  {
    var st := InitStores(localPort);
    assert w[st[0].offset..st[0].offset + |st[0].bytes|] == st[0].bytes;
    assert w[st[1].offset..st[1].offset + |st[1].bytes|] == st[1].bytes;
    assert w[st[2].offset..st[2].offset + |st[2].bytes|] == st[2].bytes;
    assert w[st[3].offset..st[3].offset + |st[3].bytes|] == st[3].bytes;
    assert w[st[4].offset..st[4].offset + |st[4].bytes|] == st[4].bytes;
    assert w[st[5].offset..st[5].offset + |st[5].bytes|] == st[5].bytes;
    assert w[st[6].offset..st[6].offset + |st[6].bytes|] == st[6].bytes;
    assert w[st[7].offset..st[7].offset + |st[7].bytes|] == st[7].bytes;
    assert w[TypeOffset] == w[0..1][0] && w[FlagsOffset] == w[1..2][0];
    InitImage(w, InitFor(localPort));
  }

  /** The cursor work of `connect` from `fill_common_pars` to the last `skip`. */
  function InitBuffer(c: Conn, memory: seq<byte>): (b: PacketBuffer)
    requires |memory| == Capacity
    ensures b.ptr == CommonHeaderSize + InitChunkSize
    ensures SameOutsideChecksum(b.data[..b.ptr], CommonHeaderBytes(HeaderOf(c)) + InitChunkBytes(InitFor(c.localPort)))
  {
    var b0 := FillCommonPars(c, Fresh(memory));
    InitStoresImage(b0, c.localPort);
    StructAfterHeader(b0, c, InitChunkSize, InitStores(c.localPort), InitChunkBytes(InitFor(c.localPort)));
    Skip(StoreMembers(b0, InitChunkSize, InitStores(c.localPort)), InitChunkSize)
  }

  /** The part of `connect` that builds and checksums the INIT. The new
      state carries the ports; the tag is sent as it stands (zero for a
      connection that has not yet learned one). */
  function Connect(crc: Crc32c, c: Conn, localPort: int, remotePort: int, memory: seq<byte>): (r: (Conn, seq<byte>))
    requires |memory| == Capacity
    ensures r.0.localPort == localPort && r.0.remotePort == remotePort
    ensures r.0.verification == c.verification && r.0.sck == c.sck && r.0.totalData == c.totalData
    ensures r.1 == Seal(crc, CommonHeaderBytes(HeaderOf(r.0)) + InitChunkBytes(InitFor(localPort)))
    ensures |r.1| == CommonHeaderSize + InitChunkSize
  {
    var c' := c.(localPort := localPort, remotePort := remotePort);
    var b := InitBuffer(c', memory);
    var len := GetPtr(b);
    InsertCrcPrefix(crc, b.data, len);
    SealAgree(crc, b.data[..len], CommonHeaderBytes(HeaderOf(c')) + InitChunkBytes(InitFor(localPort)));
    (c', InsertCrc(crc, b.data, len)[..len])
  }

  // ---------------------------------------------------------------------
  // COOKIE ECHO

  function CookieEchoHeader(cookie: seq<byte>): ChunkHeader
    requires ChunkHeaderSize + |cookie| < 0x1_0000
  {
    ChunkHeader(CookieEchoCode, 0, (ChunkHeaderSize + |cookie|) as u16)
  }

  /** The cursor work of `send_cookie_echo`: the chunk header, then the
      cookie copied in after it. */
  function CookieEchoBuffer(c: Conn, memory: seq<byte>, cookie: seq<byte>): (b: PacketBuffer)
    requires |memory| == Capacity
    requires CommonHeaderSize + ChunkHeaderSize + |cookie| <= Capacity
    ensures b.ptr == CommonHeaderSize + ChunkHeaderSize + |cookie|
    ensures SameOutsideChecksum(b.data[..b.ptr],
              CommonHeaderBytes(HeaderOf(c)) + (ChunkHeaderBytes(CookieEchoHeader(cookie)) + cookie))
  {
    var b0 := FillCommonPars(c, Fresh(memory));
    var h := CookieEchoHeader(cookie);
    var b := Skip(Store(Skip(ChunkHeaderStores(b0, h), ChunkHeaderSize), 0, cookie), |cookie|);
    CookieEchoStores(b0, h, cookie);
    PacketOfParts(b, c, ChunkHeaderBytes(h) + cookie);
    b
  }

  /** The chunk header stored at the cursor, then the cookie copied in
      after it: the two lie side by side and nothing before the cursor
      changes. */
  lemma CookieEchoStores(b0: PacketBuffer, h: ChunkHeader, cookie: seq<byte>)
    requires b0.ptr + ChunkHeaderSize + |cookie| <= Capacity
    ensures var b1 := ChunkHeaderStores(b0, h);
            var b3 := Store(Skip(b1, ChunkHeaderSize), 0, cookie);
            && b3.data[b0.ptr..b0.ptr + ChunkHeaderSize + |cookie|] == ChunkHeaderBytes(h) + cookie
            && b3.data[..b0.ptr] == b0.data[..b0.ptr]
  {
    var b1 := ChunkHeaderStores(b0, h);
    var b3 := Store(Skip(b1, ChunkHeaderSize), 0, cookie);
    var lo, mid, hi := b0.ptr, b0.ptr + ChunkHeaderSize, b0.ptr + ChunkHeaderSize + |cookie|;
    assert b3.data[lo..mid] == b1.data[lo..mid] by {
      forall i | lo <= i < mid
        ensures b3.data[i] == b1.data[i]
      {
      }
    }
    assert b1.data[lo..mid] == Load(b1, 0, ChunkHeaderSize);
    assert b3.data[mid..hi] == cookie;
    assert b3.data[lo..hi] == b3.data[lo..mid] + b3.data[mid..hi];
    assert b3.data[..lo] == b0.data[..lo] by {
      forall i | 0 <= i < lo
        ensures b3.data[i] == b0.data[i]
      {
        assert b3.data[i] == b1.data[i];
      }
    }
  }

  /** `send_cookie_echo`: one COOKIE ECHO chunk whose body is the cookie,
      octet for octet. */
  function SendCookieEcho(crc: Crc32c, c: Conn, memory: seq<byte>, cookie: seq<byte>): (p: seq<byte>)
    requires |memory| == Capacity
    requires CommonHeaderSize + ChunkHeaderSize + |cookie| <= Capacity
    ensures p == CookieEchoPacket(crc, c, cookie)
    ensures |p| == CommonHeaderSize + ChunkHeaderSize + |cookie|
  {
    var b := CookieEchoBuffer(c, memory, cookie);
    SealAgree(crc, b.data[..b.ptr], CommonHeaderBytes(HeaderOf(c)) + (ChunkHeaderBytes(CookieEchoHeader(cookie)) + cookie));
    SendBuf(crc, b)
  }

  // ---------------------------------------------------------------------
  // SACK

  /** The SACK chunk `send_sack` writes: the TSN octets as given, the
      client's window, no gap blocks and no duplicates. */
  function SackFor(tsn: Raw4): SackChunk
  {
    SackChunk(ChunkHeader(SackCode, 0, SackChunkSize as u16), tsn, ARwnd, 0, 0)
  }

  /** The member stores of `send_sack` into the `sack_chunk_t`, in source order. */
  function SackStores(tsn: Raw4): seq<MemberStore>
  {
    [ MemberStore(TypeOffset, [SackCode]),
      MemberStore(FlagsOffset, [0]),
      MemberStore(LengthOffset, Be16(ToU16(SackChunkSize))),
      MemberStore(CumulativeTsnOffset, tsn),
      MemberStore(SackARwndOffset, Be32(ARwnd)),
      MemberStore(NumGapsOffset, Be16(0)),
      MemberStore(NumDupsOffset, Be16(0)) ]
  }

  /** After the stores the `sack_chunk_t` at the cursor is the SACK image. */
  lemma SackStoresImage(b: PacketBuffer, tsn: Raw4)
    requires b.ptr + SackChunkSize <= Capacity
    ensures WithinStruct(b, SackChunkSize, SackStores(tsn)) && Disjoint(SackStores(tsn))
    ensures Load(StoreMembers(b, SackChunkSize, SackStores(tsn)), 0, SackChunkSize)
         == SackChunkBytes(SackFor(tsn))
  {
    StoreMembersHold(b, SackChunkSize, SackStores(tsn));
    SackImageOfStores(Load(StoreMembers(b, SackChunkSize, SackStores(tsn)), 0, SackChunkSize), tsn);
  }

  lemma SackImageOfStores(w: seq<byte>, tsn: Raw4)
    requires |w| == SackChunkSize && HoldsMembers(w, SackStores(tsn))
    ensures w == SackChunkBytes(SackFor(tsn))
  {
    var st := SackStores(tsn);
    assert w[st[0].offset..st[0].offset + |st[0].bytes|] == st[0].bytes;
    assert w[st[1].offset..st[1].offset + |st[1].bytes|] == st[1].bytes;
    assert w[st[2].offset..st[2].offset + |st[2].bytes|] == st[2].bytes;
    assert w[st[3].offset..st[3].offset + |st[3].bytes|] == st[3].bytes;
    assert w[st[4].offset..st[4].offset + |st[4].bytes|] == st[4].bytes;
    assert w[st[5].offset..st[5].offset + |st[5].bytes|] == st[5].bytes;
    assert w[st[6].offset..st[6].offset + |st[6].bytes|] == st[6].bytes;
    assert w[TypeOffset] == w[0..1][0] && w[FlagsOffset] == w[1..2][0];
    SackImage(w, SackFor(tsn));
  }

  /** The cursor work of `send_sack`. */
  function SackBuffer(c: Conn, memory: seq<byte>, tsn: Raw4): (b: PacketBuffer)
    requires |memory| == Capacity
    ensures b.ptr == CommonHeaderSize + SackChunkSize
    ensures SameOutsideChecksum(b.data[..b.ptr], CommonHeaderBytes(HeaderOf(c)) + SackChunkBytes(SackFor(tsn)))
  {
    var b0 := FillCommonPars(c, Fresh(memory));
    SackStoresImage(b0, tsn);
    StructAfterHeader(b0, c, SackChunkSize, SackStores(tsn), SackChunkBytes(SackFor(tsn)));
    Skip(StoreMembers(b0, SackChunkSize, SackStores(tsn)), SackChunkSize)
  }

  /** `send_sack(tsn)`. */
  function SendSack(crc: Crc32c, c: Conn, memory: seq<byte>, tsn: Raw4): (p: seq<byte>)
    requires |memory| == Capacity
    ensures p == SackPacket(crc, c, tsn)
    ensures |p| == CommonHeaderSize + SackChunkSize
  {
    var b := SackBuffer(c, memory, tsn);
    SealAgree(crc, b.data[..b.ptr], CommonHeaderBytes(HeaderOf(c)) + SackChunkBytes(SackFor(tsn)));
    SendBuf(crc, b)
  }

  // ---------------------------------------------------------------------
  // SHUTDOWN ACK

  const ShutdownAckHeader := ChunkHeader(ShutdownAckCode, 0, ChunkHeaderSize as u16)

  /** The cursor work of `shutdown`. */
  function ShutdownAckBuffer(c: Conn, memory: seq<byte>): (b: PacketBuffer)
    requires |memory| == Capacity
    ensures b.ptr == CommonHeaderSize + ChunkHeaderSize
    ensures SameOutsideChecksum(b.data[..b.ptr], CommonHeaderBytes(HeaderOf(c)) + ChunkHeaderBytes(ShutdownAckHeader))
  {
    var b0 := FillCommonPars(c, Fresh(memory));
    var b1 := ChunkHeaderStores(b0, ShutdownAckHeader);
    var b := Skip(b1, ChunkHeaderSize);
    PacketOfParts(b, c, ChunkHeaderBytes(ShutdownAckHeader));
    b
  }

  /** `shutdown()`: the reply to a SHUTDOWN, a bare SHUTDOWN ACK chunk. */
  function SendShutdownAck(crc: Crc32c, c: Conn, memory: seq<byte>): (p: seq<byte>)
    requires |memory| == Capacity
    ensures p == ShutdownAckPacket(crc, c)
    ensures |p| == CommonHeaderSize + ChunkHeaderSize
  {
    var b := ShutdownAckBuffer(c, memory);
    SealAgree(crc, b.data[..b.ptr], CommonHeaderBytes(HeaderOf(c)) + ChunkHeaderBytes(ShutdownAckHeader));
    SendBuf(crc, b)
  }

  // ---------------------------------------------------------------------
  // Replies

  /** A packet the association sends in answer to a received chunk,
      together with the state (`this`) it is sent from. */
  datatype Reply =
    | CookieEchoReply(from: Conn, cookie: seq<byte>)
    | SackReply(from: Conn, tsn: Raw4)
    | ShutdownAckReply(from: Conn)

  /** A COOKIE ECHO must fit the send buffer. */
  predicate Sendable(r: Reply)
  {
    r.CookieEchoReply? ==> CommonHeaderSize + ChunkHeaderSize + |r.cookie| <= Capacity
  }

  /** The octets of a reply, as a wire image. */
  function ReplyPacket(crc: Crc32c, r: Reply): seq<byte>
    requires Sendable(r)
  {
    match r
    case CookieEchoReply(c, cookie) => CookieEchoPacket(crc, c, cookie)
    case SackReply(c, tsn) => SackPacket(crc, c, tsn)
    case ShutdownAckReply(c) => ShutdownAckPacket(crc, c)
  }

  /** Sending a reply: the sender the C++ calls for it, building the
      packet in a fresh buffer whose initial contents are `memory`. */
  function Emit(crc: Crc32c, memory: seq<byte>, r: Reply): (p: seq<byte>)
    requires |memory| == Capacity && Sendable(r)
    ensures p == ReplyPacket(crc, r)
  {
    match r
    case CookieEchoReply(c, cookie) => SendCookieEcho(crc, c, memory, cookie)
    case SackReply(c, tsn) => SendSack(crc, c, memory, tsn)
    case ShutdownAckReply(c) => SendShutdownAck(crc, c, memory)
  }

  /** Every reply leaves with a checksum the peer accepts. */
  lemma ReplyChecksumValid(crc: Crc32c, r: Reply)
    requires Sendable(r)
    ensures ChecksumValid(crc, ReplyPacket(crc, r))
  {
    match r
    case CookieEchoReply(c, cookie) =>
      SealedIsValid(crc, CommonHeaderBytes(HeaderOf(c)) + (ChunkHeaderBytes(CookieEchoHeader(cookie)) + cookie));
    case SackReply(c, tsn) =>
      SealedIsValid(crc, CommonHeaderBytes(HeaderOf(c)) + SackChunkBytes(SackFor(tsn)));
    case ShutdownAckReply(c) =>
      SealedIsValid(crc, CommonHeaderBytes(HeaderOf(c)) + ChunkHeaderBytes(ShutdownAckHeader));
  }

  // ---------------------------------------------------------------------

  /** The three member stores of a `chunk_header_t`, in source order. */
  function ChunkHeaderMembers(h: ChunkHeader): seq<MemberStore>
  {
    [ MemberStore(TypeOffset, [h.kind]),
      MemberStore(FlagsOffset, [h.flags]),
      MemberStore(LengthOffset, Be16(h.length)) ]
  }

  /** The member stores of a `chunk_header_t` at the cursor. */
  function ChunkHeaderStores(b: PacketBuffer, h: ChunkHeader): (r: PacketBuffer)
    requires b.ptr + ChunkHeaderSize <= Capacity
    ensures r.ptr == b.ptr
    ensures Load(r, 0, ChunkHeaderSize) == ChunkHeaderBytes(h)
    ensures forall i :: 0 <= i < Capacity && !(b.ptr <= i < b.ptr + ChunkHeaderSize) ==> r.data[i] == b.data[i]
  {
    assert WithinStruct(b, ChunkHeaderSize, ChunkHeaderMembers(h));
    var r := StoreMembers(b, ChunkHeaderSize, ChunkHeaderMembers(h));
    StoreMembersHold(b, ChunkHeaderSize, ChunkHeaderMembers(h));
    ChunkHeaderOfStores(Load(r, 0, ChunkHeaderSize), h);
    r
  }

  lemma ChunkHeaderOfStores(w: seq<byte>, h: ChunkHeader)
    requires |w| == ChunkHeaderSize && HoldsMembers(w, ChunkHeaderMembers(h))
    ensures w == ChunkHeaderBytes(h)
  {
    var st := ChunkHeaderMembers(h);
    assert w[st[0].offset..st[0].offset + |st[0].bytes|] == st[0].bytes;
    assert w[st[1].offset..st[1].offset + |st[1].bytes|] == st[1].bytes;
    assert w[st[2].offset..st[2].offset + |st[2].bytes|] == st[2].bytes;
    assert w == w[0..1] + w[1..2] + w[2..4];
  }

  /** Octets whose members read as the fields of `x` are the image of `x`. */
  lemma InitImage(w: seq<byte>, x: InitChunk)
    requires |w| == InitChunkSize
    requires w[TypeOffset] == x.header.kind && w[FlagsOffset] == x.header.flags
    requires w[LengthOffset..LengthOffset + 2] == Be16(x.header.length)
    requires w[InitiateTagOffset..InitiateTagOffset + 4] == x.initiateTag
    requires w[InitARwndOffset..InitARwndOffset + 4] == Be32(x.aRwnd)
    requires w[OutStreamsOffset..OutStreamsOffset + 2] == Be16(x.outStreams)
    requires w[InStreamsOffset..InStreamsOffset + 2] == Be16(x.inStreams)
    requires w[InitialTsnOffset..InitialTsnOffset + 4] == x.initialTsn
    ensures w == InitChunkBytes(x)
  {
    assert ParseInitChunk(w) == x;
    assert w[..InitChunkSize] == w;
  }

  lemma SackImage(w: seq<byte>, x: SackChunk)
    requires |w| == SackChunkSize
    requires w[TypeOffset] == x.header.kind && w[FlagsOffset] == x.header.flags
    requires w[LengthOffset..LengthOffset + 2] == Be16(x.header.length)
    requires w[CumulativeTsnOffset..CumulativeTsnOffset + 4] == x.cumulativeTsn
    requires w[SackARwndOffset..SackARwndOffset + 4] == Be32(x.aRwnd)
    requires w[NumGapsOffset..NumGapsOffset + 2] == Be16(x.numGaps)
    requires w[NumDupsOffset..NumDupsOffset + 2] == Be16(x.numDups)
    ensures w == SackChunkBytes(x)
  {
    assert ParseSackChunk(w) == x;
    assert w[..SackChunkSize] == w;
  }

  /** A fixed-size chunk written by member stores right after the common
      header, then skipped, leaves the packet image before the cursor. */
  lemma StructAfterHeader(b0: PacketBuffer, c: Conn, size: nat, stores: seq<MemberStore>, chunk: seq<byte>)
    requires b0.ptr == CommonHeaderSize && b0.ptr + size <= Capacity
    requires b0.data[..ChecksumOffset] == CommonHeaderBytes(HeaderOf(c))[..ChecksumOffset]
    requires WithinStruct(b0, size, stores) && Disjoint(stores)
    requires Load(StoreMembers(b0, size, stores), 0, size) == chunk
    ensures SameOutsideChecksum(Skip(StoreMembers(b0, size, stores), size).data[..CommonHeaderSize + size],
              CommonHeaderBytes(HeaderOf(c)) + chunk)
  {
    var b1 := StoreMembers(b0, size, stores);
    var b := Skip(b1, size);
    assert b.data[..ChecksumOffset] == b0.data[..ChecksumOffset] by {
      forall i | 0 <= i < ChecksumOffset
        ensures b.data[i] == b0.data[i]
      {
      }
    }
    PacketOfParts(b, c, chunk);
  }

  /** A send buffer that holds the association's header (checksum field
      aside) at 0 and `chunk` right after it, with the cursor at the end
      of the chunk, holds the packet image before the cursor. */
  lemma PacketOfParts(b: PacketBuffer, c: Conn, chunk: seq<byte>)
    requires b.ptr == CommonHeaderSize + |chunk|
    requires b.data[..ChecksumOffset] == CommonHeaderBytes(HeaderOf(c))[..ChecksumOffset]
    requires b.data[CommonHeaderSize..b.ptr] == chunk
    ensures SameOutsideChecksum(b.data[..b.ptr], CommonHeaderBytes(HeaderOf(c)) + chunk)
  {
    var p, image := b.data[..b.ptr], CommonHeaderBytes(HeaderOf(c)) + chunk;
    forall i | 0 <= i < |p| && !(ChecksumOffset <= i < ChecksumOffset + 4)
      ensures p[i] == image[i]
    {
      if i < ChecksumOffset {
        assert p[i] == b.data[..ChecksumOffset][i];
      } else {
        assert p[i] == b.data[CommonHeaderSize..b.ptr][i - CommonHeaderSize];
      }
    }
  }
}

=== FILE: bytes.dfy ===
/**
  Octets and the big-endian (network byte order) integer codec that the
  `htons`/`htonl`/`ntohs` calls of the C++ implement, plus the conversions
  of a C `int` to the unsigned widths it is stored in.
 */
module Bytes {

  type byte = x: int | 0 <= x < 0x100
  type u16 = x: int | 0 <= x < 0x1_0000
  type u32 = x: int | 0 <= x < 0x1_0000_0000

  /** A 32-bit field copied as raw memory (`a = b` between two `uint32_t`
      struct members), so its four wire bytes travel unchanged. */
  type Raw4 = s: seq<byte> | |s| == 4 witness [0, 0, 0, 0]

  /** Conversion of a C `int` to `uint16_t`: reduction modulo 2^16. */
  function ToU16(x: int): (r: u16)
    ensures (x - r) % 0x1_0000 == 0
    ensures 0 <= x < 0x1_0000 ==> r == x
  {
    x % 0x1_0000
  }

  /** Conversion of a C `int` to `uint32_t`: reduction modulo 2^32. */
  function ToU32(x: int): (r: u32)
    ensures (x - r) % 0x1_0000_0000 == 0
    ensures 0 <= x < 0x1_0000_0000 ==> r == x
  {
    x % 0x1_0000_0000
  }

  /** Reads two octets as an unsigned big-endian number (`ntohs`). */
  function FromBe16(s: seq<byte>): (v: u16)
    requires |s| == 2
    ensures v / 0x100 == s[0] && v % 0x100 == s[1]
  {
    s[0] as int * 0x100 + s[1]
  }

  /** Reads four octets as an unsigned big-endian number (`ntohl`). */
  function FromBe32(s: seq<byte>): (v: u32)
    requires |s| == 4
    ensures v / 0x100_0000 == s[0]
    ensures v % 0x100 == s[3]
  {
    ((s[0] as int * 0x100 + s[1]) * 0x100 + s[2]) * 0x100 + s[3]
  }

  /** The wire image of `htons(v)`: most significant octet first. */
  function Be16(v: u16): (r: seq<byte>)
    ensures |r| == 2
    ensures FromBe16(r) == v
  {
    [v / 0x100, v % 0x100]
  }

  /** The wire image of `htonl(v)`: most significant octet first. */
  function Be32(v: u32): (r: Raw4)
    ensures FromBe32(r) == v
  {
    var hi3 := v / 0x100;
    var hi2 := hi3 / 0x100;
    assert hi2 * 0x100 + hi3 % 0x100 == hi3;
    [hi2 / 0x100, hi2 % 0x100, hi3 % 0x100, v % 0x100]
  }

  /** Decoding then re-encoding two octets gives them back. */
  lemma Be16OfFromBe16(s: seq<byte>)
    requires |s| == 2
    ensures Be16(FromBe16(s)) == s
  {
  }

  /** Decoding then re-encoding four octets gives them back. */
  lemma Be32OfFromBe32(s: seq<byte>)
    requires |s| == 4
    ensures Be32(FromBe32(s)) == s
  {
    var v := FromBe32(s);
    assert v / 0x100 == (s[0] as int * 0x100 + s[1]) * 0x100 + s[2];
    assert v / 0x100 / 0x100 == s[0] as int * 0x100 + s[1];
  }

  /** Big-endian encoding is injective at both widths. */
  lemma Be16Injective(a: u16, b: u16)
    ensures Be16(a) == Be16(b) <==> a == b
  {
  }

  lemma Be32Injective(a: u32, b: u32)
    ensures Be32(a) == Be32(b) <==> a == b
  {
  }

  /** A window of `d` that holds `x + y` holds `x` and then `y`. */
  lemma SplitWindow(d: seq<byte>, lo: int, x: seq<byte>, y: seq<byte>)
    requires 0 <= lo && lo + |x| + |y| <= |d|
    requires d[lo..lo + |x| + |y|] == x + y
    ensures d[lo..lo + |x|] == x
    ensures d[lo + |x|..lo + |x| + |y|] == y
  {
    assert d[lo..lo + |x|] == (x + y)[..|x|];
    assert d[lo + |x|..lo + |x| + |y|] == (x + y)[|x|..];
  }
}

=== FILE: checksum.dfy ===
/**
  Checksum insertion (`insert_crc32`). The CRC32c computation itself
  (`generate_crc32c`, RFC 4960 Appendix B) lives in crc.h, which is not
  part of this model: it enters every operation as the parameter `crc`.
 */
module Checksum {
  import opened Bytes
  import opened Wire

  /** The signature of `generate_crc32c`: octets in, 32-bit sum out. */
  type Crc32c = seq<byte> -> u32

  /** The packet with the common header's checksum field set to zero. */
  function ZeroChecksum(p: seq<byte>): (z: seq<byte>)
    requires |p| >= CommonHeaderSize
    ensures |z| == |p|
    ensures z[ChecksumOffset..ChecksumOffset + 4] == [0, 0, 0, 0]
    ensures forall i :: 0 <= i < |p| && !(ChecksumOffset <= i < ChecksumOffset + 4) ==> z[i] == p[i]
  {
    p[..ChecksumOffset] + [0, 0, 0, 0] + p[ChecksumOffset + 4..]
  }

  /** `insert_crc32(buffer, length)`: zero the checksum field, run the
      CRC over the first `length` octets, store the sum big-endian in the
      checksum field. No other octet changes. */
  function InsertCrc(crc: Crc32c, buffer: seq<byte>, length: int): (r: seq<byte>)
    requires CommonHeaderSize <= |buffer| && 0 <= length <= |buffer|
    ensures |r| == |buffer|
    ensures r[ChecksumOffset..ChecksumOffset + 4] == Be32(crc(ZeroChecksum(buffer)[..length]))
    ensures forall i :: 0 <= i < |buffer| && !(ChecksumOffset <= i < ChecksumOffset + 4) ==>
              r[i] == buffer[i]
  {
    var zeroed := ZeroChecksum(buffer);
    var sum := crc(zeroed[..length]);
    zeroed[..ChecksumOffset] + Be32(sum) + zeroed[ChecksumOffset + 4..]
  }

  /** A whole packet with its checksum filled in, as `send_buf` sends it. */
  function Seal(crc: Crc32c, p: seq<byte>): (r: seq<byte>)
    requires |p| >= CommonHeaderSize
    ensures SameOutsideChecksum(r, p)
  {
    InsertCrc(crc, p, |p|)
  }

  /** The receiver's acceptance test of RFC 4960 section 6.8: the stored
      sum equals the CRC of the packet with the field zeroed. The client
      never applies it to what it receives. */
  predicate ChecksumValid(crc: Crc32c, p: seq<byte>)
  {
    |p| >= CommonHeaderSize
    && p[ChecksumOffset..ChecksumOffset + 4] == Be32(crc(ZeroChecksum(p)))
  }

  /** `p` and `q` are the same packet except, perhaps, for the checksum field. */
  predicate SameOutsideChecksum(p: seq<byte>, q: seq<byte>)
  {
    && |p| == |q| >= CommonHeaderSize
    && forall i :: 0 <= i < |p| && !(ChecksumOffset <= i < ChecksumOffset + 4) ==> p[i] == q[i]
  }

  /** Two packets that differ only in the checksum field zero to the same octets. */
  lemma ZeroChecksumAgree(p: seq<byte>, q: seq<byte>)
    requires SameOutsideChecksum(p, q)
    ensures ZeroChecksum(p) == ZeroChecksum(q)
  {
    var zp, zq := ZeroChecksum(p), ZeroChecksum(q);
    forall i | 0 <= i < |p|
      ensures zp[i] == zq[i]
    {
      if ChecksumOffset <= i < ChecksumOffset + 4 {
        assert zp[i] == zp[ChecksumOffset..ChecksumOffset + 4][i - ChecksumOffset];
        assert zq[i] == zq[ChecksumOffset..ChecksumOffset + 4][i - ChecksumOffset];
      }
    }
  }

  /** Whatever the checksum field held before, the result is the same. */
  lemma InsertCrcIgnoresOldChecksum(crc: Crc32c, p: seq<byte>, q: seq<byte>, length: int)
    requires SameOutsideChecksum(p, q) && 0 <= length <= |p|
    ensures InsertCrc(crc, p, length) == InsertCrc(crc, q, length)
  {
    ZeroChecksumAgree(p, q);
  }

  /** Inserting the checksum twice gives the packet inserting it once gives. */
  lemma InsertCrcIdempotent(crc: Crc32c, buffer: seq<byte>, length: int)
    requires CommonHeaderSize <= |buffer| && 0 <= length <= |buffer|
    ensures InsertCrc(crc, InsertCrc(crc, buffer, length), length) == InsertCrc(crc, buffer, length)
  {
    InsertCrcIgnoresOldChecksum(crc, InsertCrc(crc, buffer, length), buffer, length);
  }

  /** Only the first `length` octets are sent, and they equal the sealed prefix. */
  lemma InsertCrcPrefix(crc: Crc32c, buffer: seq<byte>, length: int)
    requires CommonHeaderSize <= length <= |buffer|
    ensures InsertCrc(crc, buffer, length)[..length] == Seal(crc, buffer[..length])
  {
    var p := buffer[..length];
    var zb, zp := ZeroChecksum(buffer), ZeroChecksum(p);
    assert zb[..length] == zp by {
      forall i | 0 <= i < length
        ensures zb[i] == zp[i]
      {
        if ChecksumOffset <= i < ChecksumOffset + 4 {
          assert zb[i] == zb[ChecksumOffset..ChecksumOffset + 4][i - ChecksumOffset];
          assert zp[i] == zp[ChecksumOffset..ChecksumOffset + 4][i - ChecksumOffset];
        }
      }
    }
    assert zp[..length] == zp;
    var a, b := InsertCrc(crc, buffer, length)[..length], Seal(crc, p);
    forall i | 0 <= i < length
      ensures a[i] == b[i]
    {
      if ChecksumOffset <= i < ChecksumOffset + 4 {
        assert a[i] == InsertCrc(crc, buffer, length)[ChecksumOffset..ChecksumOffset + 4][i - ChecksumOffset];
        assert b[i] == b[ChecksumOffset..ChecksumOffset + 4][i - ChecksumOffset];
      }
    }
  }

  /** Sealing two packets that differ only in the checksum field gives one packet. */
  lemma SealAgree(crc: Crc32c, p: seq<byte>, q: seq<byte>)
    requires SameOutsideChecksum(p, q)
    ensures Seal(crc, p) == Seal(crc, q)
  {
    InsertCrcIgnoresOldChecksum(crc, p, q, |p|);
  }

  /** Sealing changes nothing but the checksum field. */
  lemma SealKeeps(crc: Crc32c, p: seq<byte>)
    requires |p| >= CommonHeaderSize
    ensures |Seal(crc, p)| == |p|
    ensures Seal(crc, p)[..ChecksumOffset] == p[..ChecksumOffset]
    ensures Seal(crc, p)[CommonHeaderSize..] == p[CommonHeaderSize..]
  {
    var s := Seal(crc, p);
    assert forall i :: 0 <= i < ChecksumOffset ==> s[..ChecksumOffset][i] == s[i] == p[i] == p[..ChecksumOffset][i];
    assert forall i :: 0 <= i < |p| - CommonHeaderSize ==>
      s[CommonHeaderSize..][i] == s[i + CommonHeaderSize] == p[i + CommonHeaderSize] == p[CommonHeaderSize..][i];
  }

  /** A sealed packet passes the receiver's checksum test. */
  lemma SealedIsValid(crc: Crc32c, p: seq<byte>)
    requires |p| >= CommonHeaderSize
    ensures ChecksumValid(crc, Seal(crc, p))
  {
    var s := Seal(crc, p);
    ZeroChecksumAgree(s, p);
    assert ZeroChecksum(p)[..|p|] == ZeroChecksum(p);
  }
}

=== FILE: chunks.dfy ===
/**
  A reference description of a received packet's chunks (section 3.2 of
  RFC 4960: type, flags, a length covering the 4-octet chunk header, and
  the value), what the association does with each chunk, and the proof
  that the chunk walk of `decode_packet` does exactly that.
 */
module Chunks {
  import opened Bytes
  import opened Wire
  import opened Cursor
  import opened Checksum
  import opened Association
  import opened Outcomes
  import opened Inbound
  import opened Params

  /** One chunk: its type octet, its flags and its value octets. */
  datatype Chunk = Chunk(code: byte, flags: byte, body: seq<byte>)

  /** A chunk the walk handles by itself: the declared length fits the
      16-bit field, it is not an INIT ACK (whose handler moves the cursor
      on its own), and a DATA chunk is long enough to hold its TSN. */
  predicate Plain(ch: Chunk)
  {
    && ChunkHeaderSize + |ch.body| < 0x1_0000
    && ch.code != InitAckCode
    && (ch.code == DataCode ==> |ch.body| >= 4)
  }

  predicate AllPlain(chs: seq<Chunk>)
  {
    forall j :: 0 <= j < |chs| ==> Plain(chs[j])
  }

  /** The wire image of one chunk, without padding. */
  function ChunkBytes(ch: Chunk): (r: seq<byte>)
    requires ChunkHeaderSize + |ch.body| < 0x1_0000
    ensures |r| == ChunkHeaderSize + |ch.body|
    ensures r[..ChunkHeaderSize] == ChunkHeaderBytes(ChunkHeader(ch.code, ch.flags, (ChunkHeaderSize + |ch.body|) as u16))
    ensures r[ChunkHeaderSize..] == ch.body
  {
    ChunkHeaderBytes(ChunkHeader(ch.code, ch.flags, (ChunkHeaderSize + |ch.body|) as u16)) + ch.body
  }

  /** The wire image of a chunk list: the images back to back. */
  function ChunksBytes(chs: seq<Chunk>): (r: seq<byte>)
    requires AllPlain(chs)
    ensures |chs| == 0 <==> |r| == 0
  {
    if |chs| == 0 then []
    else ChunkBytes(chs[0]) + ChunksBytes(chs[1..])
  }

  /** What the association does with one chunk, stated on the chunk
      rather than on octets: DATA adds its length to the byte count and
      every second one is answered by a SACK of its TSN; SHUTDOWN is
      answered by a SHUTDOWN ACK; everything else is ignored. */
  function Respond(c: Conn, ch: Chunk): (r: (Conn, seq<Reply>))
    requires Plain(ch)
    ensures Keeps(c, r.0, r.1)
    ensures r.0.totalData == c.totalData + DataOctets([ch])
    ensures 0 <= c.sck < SackEvery ==> 0 <= r.0.sck < SackEvery
  {
    match KindOf(ch.code)
    case Data =>
      var counted := c.(totalData := c.totalData + ChunkHeaderSize + |ch.body|, sck := c.sck + 1);
      if counted.sck >= SackEvery then (counted.(sck := 0), [SackReply(counted, ch.body[..4])])
      else (counted, [])
    case Shutdown => (c, [ShutdownAckReply(c)])
    case _ => (c, [])
  }

  /** The ports and the verification tag never change, and every reply
      is sent with the common header of the state the walk started from. */
  predicate Keeps(c: Conn, c': Conn, out: seq<Reply>)
  {
    && c'.localPort == c.localPort && c'.remotePort == c.remotePort
    && c'.verification == c.verification
    && forall k :: 0 <= k < |out| ==> HeaderOf(out[k].from) == HeaderOf(c)
  }

  /** The octets of DATA chunks counted into `total_data`: each DATA
      chunk's declared length, header included. */
  function DataOctets(chs: seq<Chunk>): int
    decreases |chs|
  {
    if |chs| == 0 then 0
    else (if chs[0].code == DataCode then ChunkHeaderSize + |chs[0].body| else 0) + DataOctets(chs[1..])
  }

  /** The chunks handled in order; the packets sent, in order. */
  function RespondAll(c: Conn, chs: seq<Chunk>): (r: (Conn, seq<Reply>))
    requires AllPlain(chs)
    ensures Keeps(c, r.0, r.1)
    ensures r.0.totalData == c.totalData + DataOctets(chs)
    ensures 0 <= c.sck < SackEvery ==> 0 <= r.0.sck < SackEvery
    decreases |chs|
  {
    if |chs| == 0 then (c, [])
    else
      var first := Respond(c, chs[0]);
      AllPlainTail(chs);
      var rest := RespondAll(first.0, chs[1..]);
      (rest.0, first.1 + rest.1)
  }

  lemma AllPlainTail(chs: seq<Chunk>)
    requires |chs| > 0 && AllPlain(chs)
    ensures AllPlain(chs[1..])
  {
    forall k | 0 <= k < |chs[1..]|
      ensures Plain(chs[1..][k])
    {
      assert chs[1..][k] == chs[k + 1];
    }
  }

  // ---------------------------------------------------------------------
  // The chunk walk over a chunk list

  /** The octets of one chunk image at the cursor read back as its type
      and its length. */
  lemma ChunkAt(b: PacketBuffer, ch: Chunk)
    requires ChunkHeaderSize + |ch.body| < 0x1_0000
    requires b.ptr + |ChunkBytes(ch)| <= Capacity
    requires b.data[b.ptr..b.ptr + |ChunkBytes(ch)|] == ChunkBytes(ch)
    ensures ChunkKindAt(b) == KindOf(ch.code)
    ensures ChunkLengthAt(b) == ChunkHeaderSize + |ch.body|
    ensures |ch.body| >= 4 ==> Load(b, DataTsnOffset, 4) == ch.body[..4]
  {
    var w := b.data[b.ptr..b.ptr + |ChunkBytes(ch)|];
    var h := ChunkHeaderBytes(ChunkHeader(ch.code, ch.flags, (ChunkHeaderSize + |ch.body|) as u16));
    assert Load(b, TypeOffset, 1) == w[..1];
    assert w[..ChunkHeaderSize] == h;
    assert Load(b, LengthOffset, 2) == h[LengthOffset..LengthOffset + 2];
    if |ch.body| >= 4 {
      assert Load(b, DataTsnOffset, 4) == w[ChunkHeaderSize..][..4];
    }
  }

  /** One chunk image at the cursor is handled as `Respond` says, and the
      cursor is left at the chunk so that `skip(len)` lands right after it. */
  lemma StepImage(c: Conn, b: PacketBuffer, end: int, ch: Chunk)
    requires Plain(ch)
    requires b.ptr + |ChunkBytes(ch)| <= end <= Capacity
    requires b.data[b.ptr..b.ptr + |ChunkBytes(ch)|] == ChunkBytes(ch)
    ensures Step(c, b, end)
         == Ok(Stepped(Respond(c, ch).0, b.ptr, Respond(c, ch).1, |ChunkBytes(ch)|))
  {
    ChunkAt(b, ch);
    KindOfCodeOf(InitAck);
  }

  /** One turn of the chunk walk when the chunk at the cursor is handled
      without moving the cursor: the packets of that chunk come first,
      then those of the walk from right after it. */
  lemma WalkChunksTurn(c: Conn, b: PacketBuffer, end: int, tot: int, s: Stepped)
    requires end <= Capacity && tot > 0
    requires Step(c, b, end) == Ok(s)
    requires s.cursor == b.ptr && b.ptr + s.len <= Capacity
    ensures var rest := WalkChunks(s.conn, Skip(b, s.len), end, tot - s.len);
            WalkChunks(c, b, end, tot) == Walked(rest.conn, rest.cursor, s.out + rest.out, rest.error)
  {
    if tot - s.len <= 0 {
      assert s.out + [] == s.out;
    }
  }

  /** The last turn of the chunk walk: the chunk's length uses up what
      is left, the walk ends without error wherever the cursor now is. */
  lemma WalkChunksLast(c: Conn, b: PacketBuffer, end: int, tot: int, s: Stepped)
    requires end <= Capacity && tot > 0
    requires Step(c, b, end) == Ok(s) && tot - s.len <= 0
    ensures WalkChunks(c, b, end, tot) == Walked(s.conn, s.cursor + s.len, s.out, None)
  {
  }

  /** The first chunk's handling followed by the handling of the rest. */
  lemma RespondAllFirst(c: Conn, chs: seq<Chunk>)
    requires |chs| > 0 && AllPlain(chs)
    ensures AllPlain(chs[1..])
    ensures RespondAll(c, chs)
         == (RespondAll(Respond(c, chs[0]).0, chs[1..]).0,
             Respond(c, chs[0]).1 + RespondAll(Respond(c, chs[0]).0, chs[1..]).1)
  {
    AllPlainTail(chs);
  }

  /** The image of a non-empty chunk list: the first chunk's image, then
      the image of the rest right after it. */
  lemma ChunksWindow(b: PacketBuffer, end: int, chs: seq<Chunk>)
    requires |chs| > 0 && AllPlain(chs)
    requires b.ptr + |ChunksBytes(chs)| == end <= Capacity
    requires b.data[b.ptr..end] == ChunksBytes(chs)
    ensures AllPlain(chs[1..])
    ensures b.ptr + |ChunkBytes(chs[0])| + |ChunksBytes(chs[1..])| == end
    ensures b.data[b.ptr..b.ptr + |ChunkBytes(chs[0])|] == ChunkBytes(chs[0])
    ensures Skip(b, |ChunkBytes(chs[0])|).data[b.ptr + |ChunkBytes(chs[0])|..end] == ChunksBytes(chs[1..])
  {
    AllPlainTail(chs);
    SplitWindow(b.data, b.ptr, ChunkBytes(chs[0]), ChunksBytes(chs[1..]));
  }

  /** A walk that starts at a plain chunk's image: that chunk's replies
      come first, then those of the walk from right after it. */
  lemma WalkChunksFirst(c: Conn, b: PacketBuffer, end: int, tot: int, restTot: int, ch: Chunk)
    requires Plain(ch) && tot > 0 && restTot == tot - |ChunkBytes(ch)|
    requires b.ptr + |ChunkBytes(ch)| <= end <= Capacity
    requires b.data[b.ptr..b.ptr + |ChunkBytes(ch)|] == ChunkBytes(ch)
    ensures var rest := WalkChunks(Respond(c, ch).0, Skip(b, |ChunkBytes(ch)|), end, restTot);
            WalkChunks(c, b, end, tot) == Walked(rest.conn, rest.cursor, Respond(c, ch).1 + rest.out, rest.error)
  {
    var first := Respond(c, ch);
    StepImage(c, b, end, ch);
    WalkChunksTurn(c, b, end, tot, Stepped(first.0, b.ptr, first.1, |ChunkBytes(ch)|));
  }

  /** Over a packet body made of plain chunks, the chunk walk ends right
      after the last chunk, without error, in the state `RespondAll`
      reaches, having sent exactly the packets `RespondAll` sends. */
  lemma {:induction false} WalkChunksImage(c: Conn, b: PacketBuffer, end: int, chs: seq<Chunk>, tot: int)
    requires AllPlain(chs) && tot == |ChunksBytes(chs)| && b.ptr + tot <= end <= Capacity
    requires b.data[b.ptr..b.ptr + tot] == ChunksBytes(chs)
    ensures WalkChunks(c, b, end, tot) == Walked(RespondAll(c, chs).0, b.ptr + tot, RespondAll(c, chs).1, None)
    decreases |chs|
  {
    if |chs| == 0 {
      assert tot == 0;
    } else {
      var first := Respond(c, chs[0]);
      var n := |ChunkBytes(chs[0])|;
      var b' := Skip(b, n);
      var restTot := tot - n;
      ChunksWindow(b, b.ptr + tot, chs);
      WalkChunksFirst(c, b, end, tot, restTot, chs[0]);
      RespondAllFirst(c, chs);
      WalkChunksImage(first.0, b', end, chs[1..], restTot);
      WalkedAppend(WalkChunks(c, b, end, tot), WalkChunks(first.0, b', end, restTot),
                   first.1, RespondAll(first.0, chs[1..]), RespondAll(c, chs), b.ptr + tot);
    }
  }

  /** Prepending one chunk's packets to a walk that ends as a reference
      says makes the walk end as the reference with those packets first. */
  lemma WalkedAppend(w: Walked, rest: Walked, first: seq<Reply>, ref: (Conn, seq<Reply>), all: (Conn, seq<Reply>), end: int)
    requires w == Walked(rest.conn, rest.cursor, first + rest.out, rest.error)
    requires rest == Walked(ref.0, end, ref.1, None)
    requires all == (ref.0, first + ref.1)
    ensures w == Walked(all.0, end, all.1, None)
  {
  }

  /** `decode_packet` over a whole packet of plain chunks, whatever its
      common header holds: ports, verification tag and checksum are
      never looked at. */
  lemma DecodePacketImage(c: Conn, b: PacketBuffer, header: seq<byte>, chs: seq<Chunk>)
    requires AllPlain(chs) && |header| == CommonHeaderSize
    requires b.ptr + CommonHeaderSize + |ChunksBytes(chs)| <= Capacity
    requires b.data[b.ptr..b.ptr + CommonHeaderSize + |ChunksBytes(chs)|] == header + ChunksBytes(chs)
    ensures DecodePacket(c, b, CommonHeaderSize + |ChunksBytes(chs)|)
         == Walked(RespondAll(c, chs).0, b.ptr + CommonHeaderSize + |ChunksBytes(chs)|, RespondAll(c, chs).1, None)
  {
    var tot := |ChunksBytes(chs)|;
    var b1 := Skip(b, CommonHeaderSize);
    SplitWindow(b.data, b.ptr, header, ChunksBytes(chs));
    WalkChunksImage(c, b1, Capacity, chs, tot);
    DecodePacketWalks(c, b, CommonHeaderSize + tot, tot);
  }

  /** `decode_packet` is the chunk walk over what follows the common header. */
  lemma DecodePacketWalks(c: Conn, b: PacketBuffer, total: int, tot: int)
    requires b.ptr + CommonHeaderSize <= Capacity && tot == total - CommonHeaderSize
    ensures DecodePacket(c, b, total) == WalkChunks(c, Skip(b, CommonHeaderSize), Capacity, tot)
  {
  }

  // ---------------------------------------------------------------------
  // Padding is not skipped

  /** Section 3.2 of RFC 4960 pads every chunk to a multiple of four
      octets, but `decode_packet` skips only the declared length. Three
      zero octets of padding at the cursor read as the header of a DATA
      chunk whose length is the octet after them; a zero there is a zero
      chunk length, anything else is handled by `decode_data`. */
  lemma PaddingReadsAsData(c: Conn, b: PacketBuffer, end: int)
    requires b.ptr + DataPrefixSize <= end <= Capacity
    requires b.data[b.ptr..b.ptr + 3] == [0, 0, 0]
    ensures ChunkKindAt(b) == Data && ChunkLengthAt(b) == b.data[b.ptr + 3] as u16
    ensures b.data[b.ptr + 3] == 0 ==> Step(c, b, end) == Err(ZeroChunkLength)
    ensures b.data[b.ptr + 3] != 0 ==>
              Step(c, b, end) == Ok(Stepped(DecodeData(c, b).0, b.ptr, DecodeData(c, b).1, b.data[b.ptr + 3] as int))
  {
    assert Load(b, TypeOffset, 1) == [b.data[b.ptr]];
    assert Load(b, LengthOffset, 2) == [0, b.data[b.ptr + 3]];
  }

  /** A packet whose last chunk is a DATA chunk followed by three octets
      of padding, entered with the counter at 0. The padding is handled
      as a second DATA chunk: its length and its TSN are whatever the
      buffer holds past the packet. Being the second DATA chunk, it is
      counted and answered by a SACK of those stale octets, and the
      counter ends at 0. */
  lemma TrailingPaddingSacks(c: Conn, b: PacketBuffer, ch: Chunk, tot: int)
    requires Plain(ch) && ch.code == DataCode && c.sck == 0
    requires tot == |ChunkBytes(ch)| + 3 && b.ptr + tot + 5 <= Capacity
    requires b.data[b.ptr..b.ptr + tot] == ChunkBytes(ch) + [0, 0, 0]
    requires b.data[b.ptr + tot] >= 3
    ensures var w, pad := WalkChunks(c, b, Capacity, tot), b.ptr + |ChunkBytes(ch)|;
            && w.error == None
            && w.conn.sck == 0
            && w.conn.totalData == c.totalData + |ChunkBytes(ch)| + b.data[b.ptr + tot] as int
            && |w.out| == 1 && w.out[0].SackReply? && w.out[0].tsn == b.data[pad + 4..pad + 8]
  {
    var n := |ChunkBytes(ch)|;
    var first := Respond(c, ch);
    var b' := Skip(b, n);
    SplitWindow(b.data, b.ptr, ChunkBytes(ch), [0, 0, 0]);
    WalkChunksFirst(c, b, Capacity, tot, 3, ch);
    RespondData(c, ch);
    assert DataOctets([ch]) == n by {
      assert [ch][1..] == [];
    }
    PaddingReadsAsData(first.0, b', Capacity);
    var d := DecodeData(first.0, b');
    WalkChunksLast(first.0, b', Capacity, 3, Stepped(d.0, b'.ptr, d.1, b.data[b.ptr + tot] as int));
    assert Load(b', DataTsnOffset, 4) == b.data[b.ptr + n + 4..b.ptr + n + 8];
  }

  /** A DATA chunk whose declared length uses up `tot`, read while no SACK
      is due, touches only its 4-octet header: it is counted and skipped
      even when its TSN would lie past the end of the buffer. */
  lemma DataWithoutSackNeedsHeader(c: Conn, b: PacketBuffer, tot: int)
    requires b.ptr + ChunkHeaderSize <= Capacity && c.sck + 1 < SackEvery
    requires ChunkKindAt(b) == Data && 0 < tot <= ChunkLengthAt(b) as int
    ensures var len := ChunkLengthAt(b) as int;
            WalkChunks(c, b, Capacity, tot)
              == Walked(c.(totalData := c.totalData + len, sck := c.sck + 1), b.ptr + len, [], None)
  {
  }

  /** The last four octets of the buffer hold a DATA header of length 4,
      and `tot` is 4: the walk counts it and ends at the end of the buffer
      without reading a TSN. */
  lemma DataHeaderAtBufferEnd(c: Conn, b: PacketBuffer)
    requires b.ptr == Capacity - ChunkHeaderSize && c.sck == 0
    requires b.data[b.ptr..] == [DataCode, 0, 0, 4]
    ensures WalkChunks(c, b, Capacity, 4) == Walked(c.(totalData := c.totalData + 4, sck := 1), Capacity, [], None)
  {
    assert Load(b, TypeOffset, 1) == [DataCode];
    assert Load(b, LengthOffset, 2) == [0, 4];
    DataWithoutSackNeedsHeader(c, b, 4);
  }

  // ---------------------------------------------------------------------
  // The SACK cadence

  predicate AllData(chs: seq<Chunk>)
  {
    forall j :: 0 <= j < |chs| ==> chs[j].code == DataCode
  }

  /** `out` is the SACK sequence a run of DATA chunks `chs` gets when the
      counter starts at `sck`: `(sck + n) / 2` SACKs, the k-th carrying
      the TSN octets of chunk `2k + 1 - sck`. */
  predicate SacksFor(out: seq<Reply>, chs: seq<Chunk>, sck: int)
  {
    && |out| == (sck + |chs|) / 2
    && forall k :: 0 <= k < |out| ==>
         && out[k].SackReply?
         && 0 <= 2 * k + 1 - sck < |chs|
         && |chs[2 * k + 1 - sck].body| >= 4
         && out[k].tsn == chs[2 * k + 1 - sck].body[..4]
  }

  /** Over a run of DATA chunks, starting from a counter of 0 or 1, the
      counter ends at `(sck + n) % 2`. */
  lemma {:induction false} SackCounter(c: Conn, chs: seq<Chunk>)
    requires AllPlain(chs) && AllData(chs) && 0 <= c.sck < SackEvery
    ensures RespondAll(c, chs).0.sck == (c.sck + |chs|) % 2
    decreases |chs|
  {
    if |chs| > 0 {
      var first := Respond(c, chs[0]);
      RespondAllFirst(c, chs);
      AllDataTail(chs);
      RespondData(c, chs[0]);
      SackCounter(first.0, chs[1..]);
      CounterCons(c.sck, first.0.sck, RespondAll(c, chs).0.sck, |chs|);
    }
  }

  /** Over a run of DATA chunks, starting from a counter of 0 or 1, a SACK
      goes out for every second chunk, carrying that chunk's TSN. */
  lemma {:induction false} SackCadence(c: Conn, chs: seq<Chunk>)
    requires AllPlain(chs) && AllData(chs) && 0 <= c.sck < SackEvery
    ensures SacksFor(RespondAll(c, chs).1, chs, c.sck)
    decreases |chs|
  {
    if |chs| > 0 {
      AllPlainTail(chs);
      AllDataTail(chs);
      RespondData(c, chs[0]);
      SackCadence(Respond(c, chs[0]).0, chs[1..]);
      SackCadenceStep(c, chs);
    }
  }

  /** The SACKs of a run of DATA chunks follow the cadence once those of
      its tail do, counted from the flipped counter. */
  lemma SackCadenceStep(c: Conn, chs: seq<Chunk>)
    requires |chs| > 0 && AllPlain(chs) && AllData(chs) && 0 <= c.sck < SackEvery
    requires AllPlain(chs[1..])
    requires SacksFor(RespondAll(Respond(c, chs[0]).0, chs[1..]).1, chs[1..], Respond(c, chs[0]).0.sck)
    ensures SacksFor(RespondAll(c, chs).1, chs, c.sck)
  {
    var first := Respond(c, chs[0]);
    RespondAllFirst(c, chs);
    RespondData(c, chs[0]);
    SacksForCons(first.1, RespondAll(first.0, chs[1..]).1, RespondAll(c, chs).1, chs, c.sck, first.0.sck);
  }

  /** The SACKs of a run are those of its first chunk followed by those of
      the rest, counted from the flipped counter. */
  lemma SacksForCons(first: seq<Reply>, tail: seq<Reply>, out: seq<Reply>, chs: seq<Chunk>, sck: int, sck1: int)
    requires |chs| > 0 && 0 <= sck < SackEvery && |chs[0].body| >= 4
    requires sck == 0 ==> first == []
    requires sck == 1 ==> |first| == 1 && first[0].SackReply? && first[0].tsn == chs[0].body[..4]
    requires sck1 == (sck + 1) % 2 && SacksFor(tail, chs[1..], sck1)
    requires out == first + tail
    ensures SacksFor(out, chs, sck)
  {
    var rest := chs[1..];
    forall k | 0 <= k < |out|
      ensures && out[k].SackReply?
              && 0 <= 2 * k + 1 - sck < |chs|
              && |chs[2 * k + 1 - sck].body| >= 4
              && out[k].tsn == chs[2 * k + 1 - sck].body[..4]
    {
      if sck == 0 {
        assert out[k] == tail[k];
        assert rest[2 * k] == chs[2 * k + 1];
      } else if k == 0 {
        assert out[0] == first[0];
      } else {
        assert out[k] == tail[k - 1];
        assert rest[2 * k - 1] == chs[2 * k];
      }
    }
  }

  /** The counter after a run is the counter after its first chunk
      advanced by the rest. */
  lemma CounterCons(sck: int, afterFirst: int, afterAll: int, n: int)
    requires n > 0 && afterFirst == (sck + 1) % 2 && afterAll == (afterFirst + (n - 1)) % 2
    ensures afterAll == (sck + n) % 2
  {
  }

  lemma AllDataTail(chs: seq<Chunk>)
    requires |chs| > 0 && AllData(chs)
    ensures AllData(chs[1..])
  {
    forall j | 0 <= j < |chs[1..]|
      ensures chs[1..][j].code == DataCode
    {
      assert chs[1..][j] == chs[j + 1];
    }
  }

  /** One DATA chunk: the counter flips between 0 and 1, and the chunk
      that brings it to two is answered by a SACK of its TSN. */
  lemma RespondData(c: Conn, ch: Chunk)
    requires Plain(ch) && ch.code == DataCode && 0 <= c.sck < SackEvery
    ensures Respond(c, ch).0.sck == (c.sck + 1) % 2
    ensures c.sck == 0 ==> Respond(c, ch).1 == []
    ensures c.sck == 1 ==> |Respond(c, ch).1| == 1 && Respond(c, ch).1[0].SackReply?
                           && Respond(c, ch).1[0].tsn == ch.body[..4]
  {
    KindOfCodeOf(Data);
  }
}

=== FILE: cursor.dfy ===
/**
  `packet_buffer_t`: a fixed 10240-octet array with an integer cursor.
  Struct stores through `get()` become `Store` (the octets land at the
  cursor plus the member's offset, the cursor stays put); struct loads
  become `Load`.
 */
module Cursor {
  import opened Bytes

  const Capacity := 10240

  datatype Buffer = Buffer(data: seq<byte>, ptr: int)

  /** A buffer of exactly `Capacity` octets whose cursor lies inside it.
      The C++ `skip` never checks its bound; here every skip must keep
      the cursor within the array. */
  type PacketBuffer = b: Buffer | |b.data| == Capacity && 0 <= b.ptr <= Capacity
    witness Buffer(seq(Capacity, _ => 0), 0)

  /** A newly declared buffer: the cursor starts at 0 and the octets are
      whatever the memory held, because the constructor does not clear them. */
  function Fresh(memory: seq<byte>): (b: PacketBuffer)
    requires |memory| == Capacity
    ensures b.ptr == 0 && b.data == memory
  {
    Buffer(memory, 0)
  }

  /** `get()`: the octets the pointer `data + ptr` addresses. */
  function Get(b: PacketBuffer): (view: seq<byte>)
    ensures |view| == Capacity - b.ptr
    ensures forall i :: 0 <= i < |view| ==> view[i] == b.data[b.ptr + i]
  {
    b.data[b.ptr..]
  }

  /** `skip(n)`: the cursor moves by exactly `n`; no octet changes. */
  function Skip(b: PacketBuffer, n: int): (r: PacketBuffer)
    requires 0 <= b.ptr + n <= Capacity
    ensures r.ptr == b.ptr + n
    ensures r.data == b.data
  {
    b.(ptr := b.ptr + n)
  }

  /** `get_ptr()`: the number of octets before the cursor. */
  function GetPtr(b: PacketBuffer): (n: int)
    ensures 0 <= n <= Capacity && n == b.ptr
  {
    b.ptr
  }

  /** `reset()`: the cursor returns to 0; no octet changes. */
  function Reset(b: PacketBuffer): (r: PacketBuffer)
    ensures r.ptr == 0
    ensures r.data == b.data
  {
    b.(ptr := 0)
  }

  /** A store into the struct member at `offset` of the struct overlaid
      at the cursor: exactly the octets `bytes` replace the ones at
      `ptr + offset`, everything else and the cursor are left alone. */
  function Store(b: PacketBuffer, offset: nat, bytes: seq<byte>): (r: PacketBuffer)
    requires b.ptr + offset + |bytes| <= Capacity
    ensures r.ptr == b.ptr
    ensures r.data[b.ptr + offset..b.ptr + offset + |bytes|] == bytes
    ensures forall i :: 0 <= i < Capacity && !(b.ptr + offset <= i < b.ptr + offset + |bytes|) ==>
              r.data[i] == b.data[i]
  {
    var at := b.ptr + offset;
    b.(data := b.data[..at] + bytes + b.data[at + |bytes|..])
  }

  /** A load of `n` octets from the struct member at `offset` of the
      struct overlaid at the cursor. */
  function Load(b: PacketBuffer, offset: nat, n: nat): (bytes: seq<byte>)
    requires b.ptr + offset + n <= Capacity
    ensures |bytes| == n
    ensures forall i :: 0 <= i < n ==> bytes[i] == b.data[b.ptr + offset + i]
  {
    b.data[b.ptr + offset..b.ptr + offset + n]
  }

  /** A load from a struct whose image `w` lies at the cursor reads the
      member's octets out of `w`. */
  lemma LoadImage(b: PacketBuffer, w: seq<byte>, offset: nat, n: nat)
    requires b.ptr + |w| <= Capacity && b.data[b.ptr..b.ptr + |w|] == w
    requires offset + n <= |w|
    ensures Load(b, offset, n) == w[offset..offset + n]
  {
    forall i | 0 <= i < n
      ensures Load(b, offset, n)[i] == w[offset..offset + n][i]
    {
      assert b.data[b.ptr..b.ptr + |w|][offset + i] == w[offset + i];
    }
  }

  /** One member store of a struct: the member's offset and its octets. */
  datatype MemberStore = MemberStore(offset: nat, bytes: seq<byte>)

  /** Every store lands inside the `size` octets of the struct at the cursor. */
  predicate WithinStruct(b: PacketBuffer, size: nat, stores: seq<MemberStore>)
  {
    && b.ptr + size <= Capacity
    && forall j :: 0 <= j < |stores| ==> stores[j].offset + |stores[j].bytes| <= size
  }

  /** No two stores overlap, as no two members of a packed struct do. */
  predicate Disjoint(stores: seq<MemberStore>)
  {
    forall j, k :: 0 <= j < k < |stores| ==>
      stores[j].offset + |stores[j].bytes| <= stores[k].offset
      || stores[k].offset + |stores[k].bytes| <= stores[j].offset
  }

  /** The member stores of one struct, performed in order. Each member
      ends up holding its octets, and nothing outside the struct changes. */
  function StoreMembers(b: PacketBuffer, size: nat, stores: seq<MemberStore>): (r: PacketBuffer)
    requires WithinStruct(b, size, stores) && Disjoint(stores)
    ensures r.ptr == b.ptr
    ensures forall j :: 0 <= j < |stores| ==>
              Load(r, stores[j].offset, |stores[j].bytes|) == stores[j].bytes
    ensures forall i :: 0 <= i < Capacity && !(b.ptr <= i < b.ptr + size) ==> r.data[i] == b.data[i]
    decreases |stores|
  {
    if |stores| == 0 then b
    else
      var n := |stores| - 1;
      var r0 := StoreMembers(b, size, stores[..n]);
      StoreMembersStep(b, r0, size, stores);
      Store(r0, stores[n].offset, stores[n].bytes)
  }

  /** The last of disjoint member stores, made after the ones before it,
      leaves those holding their octets and the outside of the struct
      alone. */
  lemma StoreMembersStep(b: PacketBuffer, r0: PacketBuffer, size: nat, stores: seq<MemberStore>)
    requires |stores| > 0 && WithinStruct(b, size, stores) && Disjoint(stores) && r0.ptr == b.ptr
    requires var n := |stores| - 1;
             forall j :: 0 <= j < n ==> Load(r0, stores[..n][j].offset, |stores[..n][j].bytes|) == stores[..n][j].bytes
    requires forall i :: 0 <= i < Capacity && !(b.ptr <= i < b.ptr + size) ==> r0.data[i] == b.data[i]
    ensures var last := stores[|stores| - 1];
            var r := Store(r0, last.offset, last.bytes);
            && (forall j :: 0 <= j < |stores| ==> Load(r, stores[j].offset, |stores[j].bytes|) == stores[j].bytes)
            && (forall i :: 0 <= i < Capacity && !(b.ptr <= i < b.ptr + size) ==> r.data[i] == b.data[i])
  {
    var n := |stores| - 1;
    var last := stores[n];
    var r := Store(r0, last.offset, last.bytes);
    forall j | 0 <= j < |stores|
      ensures Load(r, stores[j].offset, |stores[j].bytes|) == stores[j].bytes
    {
      if j < n {
        assert stores[..n][j] == stores[j];
        LoadStoreApart(r0, last.offset, last.bytes, stores[j].offset, |stores[j].bytes|);
      } else {
        LoadStore(r0, last.offset, last.bytes);
      }
    }
  }

  /** A store leaves a load that does not overlap it unchanged. */
  lemma LoadStoreApart(b: PacketBuffer, offset: nat, bytes: seq<byte>, at: nat, n: nat)
    requires b.ptr + offset + |bytes| <= Capacity && b.ptr + at + n <= Capacity
    requires offset + |bytes| <= at || at + n <= offset
    ensures Load(Store(b, offset, bytes), at, n) == Load(b, at, n)
  {
    var r := Store(b, offset, bytes);
    assert forall i :: 0 <= i < n ==> Load(r, at, n)[i] == Load(b, at, n)[i];
  }

  /** A member read out of a struct read is the member read directly. */
  lemma LoadWithin(b: PacketBuffer, size: nat, offset: nat, n: nat)
    requires offset + n <= size && b.ptr + size <= Capacity
    ensures Load(b, 0, size)[offset..offset + n] == Load(b, offset, n)
  {
  }

  /** Each member of the struct image `w` holds the octets of its store. */
  predicate HoldsMembers(w: seq<byte>, stores: seq<MemberStore>)
  {
    forall j :: 0 <= j < |stores| ==>
      && stores[j].offset + |stores[j].bytes| <= |w|
      && w[stores[j].offset..stores[j].offset + |stores[j].bytes|] == stores[j].bytes
  }

  /** The struct read back after its member stores holds every member. */
  lemma StoreMembersHold(b: PacketBuffer, size: nat, stores: seq<MemberStore>)
    requires WithinStruct(b, size, stores) && Disjoint(stores)
    ensures HoldsMembers(Load(StoreMembers(b, size, stores), 0, size), stores)
  {
    var r := StoreMembers(b, size, stores);
    forall j | 0 <= j < |stores|
      ensures Load(r, 0, size)[stores[j].offset..stores[j].offset + |stores[j].bytes|] == stores[j].bytes
    {
      LoadWithin(r, size, stores[j].offset, |stores[j].bytes|);
    }
  }

  /** Reading back a store gives the stored octets. */
  lemma LoadStore(b: PacketBuffer, offset: nat, bytes: seq<byte>)
    requires b.ptr + offset + |bytes| <= Capacity
    ensures Load(Store(b, offset, bytes), offset, |bytes|) == bytes
  {
  }

  /** Skip composes additively, and reset forgets every earlier skip. */
  lemma SkipSkip(b: PacketBuffer, m: int, n: int)
    requires 0 <= b.ptr + m <= Capacity && 0 <= b.ptr + m + n <= Capacity
    ensures Skip(Skip(b, m), n) == Skip(b, m + n)
  {
  }

  lemma ResetSkip(b: PacketBuffer, n: int)
    requires 0 <= b.ptr + n <= Capacity
    ensures Reset(Skip(b, n)) == Reset(b)
  {
  }
}

=== FILE: dispatch.dfy ===
/**
  `sctp_t`: the table of 1024 associations indexed by local port, the
  receive loop that hands each raw datagram to the association named by
  its destination port, and the once-a-second reset of the byte counters
  of the first ten associations.

  A raw IPv4 socket delivers the IP header with the packet; the loop
  skips a fixed 20 octets for it. The receive buffer is declared once
  and never cleared, so octets beyond a short datagram are those of
  earlier ones.
 */
module Dispatch {
  import opened Bytes
  import opened Wire
  import opened Cursor
  import opened Checksum
  import opened Association
  import opened Outcomes
  import opened Inbound
  import opened Chunks

  /** `connection_t connections[1024]` */
  const TableSize := 1024
  /** The IPv4 header in front of every datagram, assumed option-free. */
  const IpHeaderSize := 20
  /** The counters printed and cleared each second: `connections[0..9]`. */
  const ReportedCount := 10

  predicate IsTable(t: seq<Conn>)
  {
    |t| == TableSize
  }

  /** What `recvfrom` hands back: a datagram, or a failure (`r == -1`). */
  datatype Received = Datagram(octets: seq<byte>) | RecvFailed

  /** `buf.reset()` and `recvfrom` into `buf.data`: the datagram's octets
      land at the start of the buffer (cut to the buffer's size, as the
      kernel does), the rest of the buffer keeps what it held; the count
      is the number of octets stored, or -1 on failure. */
  function Receive(b: PacketBuffer, rx: Received): (r: (PacketBuffer, int))
    ensures r.0.ptr == 0 && -1 <= r.1 <= Capacity
    ensures rx.RecvFailed? ==> r.1 == -1 && r.0.data == b.data
    ensures rx.Datagram? ==>
              && r.1 == (if |rx.octets| <= Capacity then |rx.octets| else Capacity)
              && r.0.data[..r.1] == rx.octets[..r.1]
              && r.0.data[r.1..] == b.data[r.1..]
  {
    var b0 := Reset(b);
    match rx
    case RecvFailed => (b0, -1)
    case Datagram(octets) =>
      var n := if |octets| <= Capacity then |octets| else Capacity;
      var b1 := Store(b0, 0, octets[..n]);
      assert b1.data[n..] == b.data[n..] by {
        forall i | 0 <= i < Capacity - n
          ensures b1.data[n..][i] == b.data[n..][i]
        {
          assert b1.data[n + i] == b0.data[n + i];
        }
      }
      (b1, n)
  }

  /** The destination port the loop reads: octets 2 and 3 of the SCTP
      common header that follows the IP header. */
  function PortAt(b: PacketBuffer): u16
    requires b.ptr + CommonHeaderSize <= Capacity
  {
    FromBe16(Load(b, DstPortOffset, 2))
  }

  datatype RouteError = PortOutOfRange(port: int)

  /** One received packet: the buffer as the loop leaves it, the port it
      was routed by, and what the association's chunk walk did. */
  datatype Delivered = Delivered(table: seq<Conn>, buffer: PacketBuffer, port: int, walked: Walked)

  /** Routing a received packet, the buffer's cursor past the IP header:
      read the destination port and let that association decode the
      remaining `n - 20` octets. A port beyond the table is refused (see
      the findings about `connections[local_port]`); nothing else about
      the table changes. */
  function Route(table: seq<Conn>, b: PacketBuffer, n: int): (r: Result<Delivered, RouteError>)
    requires IsTable(table) && b.ptr == IpHeaderSize && n <= Capacity
    ensures r.Err? <==> PortAt(b) as int >= TableSize
    ensures r.Err? ==> r.error.port == PortAt(b) as int
    ensures r.Ok? ==> && r.value.port == PortAt(b) as int
                      && IsTable(r.value.table)
                      && (forall i :: 0 <= i < TableSize && i != r.value.port ==> r.value.table[i] == table[i])
                      && r.value.table[r.value.port] == r.value.walked.conn
                      && r.value.buffer == b
    // the association keeps its ports and its counters only grow
    ensures r.Ok? ==> var was, now := table[r.value.port], r.value.table[r.value.port];
              && now.localPort == was.localPort && now.remotePort == was.remotePort
              && was.totalData <= now.totalData
              && (0 <= was.sck < SackEvery ==> 0 <= now.sck < SackEvery)
    // a datagram too short to hold a chunk changes nothing and sends nothing
    ensures r.Ok? && n <= IpHeaderSize + CommonHeaderSize ==>
              r.value.table == table && r.value.walked.out == []
  {
    var port := PortAt(b) as int;
    if port >= TableSize then Err(PortOutOfRange(port))
    else
      var w := DecodePacket(table[port], b, n - IpHeaderSize);
      Ok(Delivered(table[port := w.conn], b, port, w))
  }

  /** One pass of `read_loop` up to the clock check: receive, skip the IP
      header, route. The port routed by is the one the datagram carries
      whenever it is long enough to carry one. */
  function ReadOne(table: seq<Conn>, b: PacketBuffer, rx: Received): (r: Result<Delivered, RouteError>)
    requires IsTable(table)
    ensures rx.Datagram? && IpHeaderSize + CommonHeaderSize <= |rx.octets| ==>
              var port := FromBe16(rx.octets[IpHeaderSize + DstPortOffset..IpHeaderSize + DstPortOffset + 2]) as int;
              if port < TableSize then r.Ok? && r.value.port == port else r == Err(PortOutOfRange(port))
  {
    var (b1, n) := Receive(b, rx);
    var b2 := Skip(b1, IpHeaderSize);
    assert Load(b2, DstPortOffset, 2) == b1.data[IpHeaderSize + DstPortOffset..IpHeaderSize + DstPortOffset + 2];
    Route(table, b2, n)
  }

  /** A packet past the IP header made of a common header whose
      destination port names an entry of the table, and a run of chunks,
      reaches that entry alone, which answers the chunks one by one. */
  lemma RouteImage(table: seq<Conn>, b: PacketBuffer, h: CommonHeader, chs: seq<Chunk>, n: int)
    requires IsTable(table) && AllPlain(chs) && h.dstPort as int < TableSize
    requires b.ptr == IpHeaderSize && n == IpHeaderSize + CommonHeaderSize + |ChunksBytes(chs)| && n <= Capacity
    requires b.data[b.ptr..n] == CommonHeaderBytes(h) + ChunksBytes(chs)
    ensures var port, done := h.dstPort as int, RespondAll(table[h.dstPort], chs);
            Route(table, b, n) == Ok(Delivered(table[port := done.0], b, port, Walked(done.0, n, done.1, None)))
  {
    SplitWindow(b.data, b.ptr, CommonHeaderBytes(h), ChunksBytes(chs));
    CommonHeaderRoundTrip(h);
    assert Load(b, DstPortOffset, 2) == CommonHeaderBytes(h)[DstPortOffset..DstPortOffset + 2];
    DecodePacketImage(table[h.dstPort], b, CommonHeaderBytes(h), chs);
  }

  /** A datagram that fits the buffer lands whole at its start, and the
      cursor past the IP header sees the packet behind it. */
  lemma ReceiveWhole(b: PacketBuffer, ip: seq<byte>, packet: seq<byte>)
    requires |ip| == IpHeaderSize && IpHeaderSize + |packet| <= Capacity
    ensures Receive(b, Datagram(ip + packet)).1 == IpHeaderSize + |packet|
    ensures var b2 := Skip(Receive(b, Datagram(ip + packet)).0, IpHeaderSize);
            b2.ptr == IpHeaderSize && b2.data[b2.ptr..IpHeaderSize + |packet|] == packet
  {
    var b1 := Receive(b, Datagram(ip + packet)).0;
    assert b1.data[..IpHeaderSize + |packet|] == ip + packet;
    assert b1.data[IpHeaderSize..IpHeaderSize + |packet|] == (ip + packet)[IpHeaderSize..];
  }

  /** The same for the whole datagram as `recvfrom` delivers it, IP
      header first. */
  lemma DeliverImage(table: seq<Conn>, b: PacketBuffer, ip: seq<byte>, h: CommonHeader, chs: seq<Chunk>, n: int)
    requires IsTable(table) && AllPlain(chs) && |ip| == IpHeaderSize
    requires n == IpHeaderSize + CommonHeaderSize + |ChunksBytes(chs)| && n <= Capacity
    requires h.dstPort as int < TableSize
    ensures var r := ReadOne(table, b, Datagram(ip + (CommonHeaderBytes(h) + ChunksBytes(chs))));
            var port := h.dstPort as int;
            && r.Ok? && r.value.port == port
            && r.value.table == table[port := RespondAll(table[port], chs).0]
            && r.value.walked.out == RespondAll(table[port], chs).1
  {
    var packet := CommonHeaderBytes(h) + ChunksBytes(chs);
    ReceiveWhole(b, ip, packet);
    RouteImage(table, Skip(Receive(b, Datagram(ip + packet)).0, IpHeaderSize), h, chs, n);
  }

  // ---------------------------------------------------------------------
  // The once-a-second report

  /** The byte counters of `connections[0..9]` cleared, nothing else changed. */
  function ResetCounters(table: seq<Conn>): (r: seq<Conn>)
    requires IsTable(table)
    ensures IsTable(r)
    ensures forall i :: 0 <= i < ReportedCount ==> r[i] == table[i].(totalData := 0)
    ensures forall i :: ReportedCount <= i < TableSize ==> r[i] == table[i]
  {
    seq(TableSize, i requires 0 <= i < TableSize => if i < ReportedCount then table[i].(totalData := 0) else table[i])
  }

  /** The `for (int i=0; i<10; i++)` loop of `read_loop` as written. */
  method ClearCounters(table: seq<Conn>) returns (r: seq<Conn>)
    requires IsTable(table)
    ensures IsTable(r)
    ensures forall i :: 0 <= i < ReportedCount ==> r[i].totalData == 0
    ensures forall i :: 0 <= i < ReportedCount ==> r[i] == table[i].(totalData := 0)
    ensures forall i :: ReportedCount <= i < TableSize ==> r[i] == table[i]
  {
    r := table;
    var i := 0;
    while i < ReportedCount
      invariant 0 <= i <= ReportedCount && |r| == TableSize
      invariant forall j :: 0 <= j < i ==> r[j] == table[j].(totalData := 0)
      invariant forall j :: i <= j < TableSize ==> r[j] == table[j]
    {
      r := r[i := r[i].(totalData := 0)];
      i := i + 1;
    }
  }

  /** Clearing twice is clearing once. */
  lemma ResetCountersIdempotent(table: seq<Conn>)
    requires IsTable(table)
    ensures ResetCounters(ResetCounters(table)) == ResetCounters(table)
  {
    var once, twice := ResetCounters(table), ResetCounters(ResetCounters(table));
    forall i | 0 <= i < TableSize
      ensures twice[i] == once[i]
    {
      if i < ReportedCount {
        assert twice[i] == once[i].(totalData := 0);
      }
    }
  }

  // ---------------------------------------------------------------------
  // The loop

  /** One turn of the `while (true)` loop: a datagram, and whether the
      clock moved on to a new second before the next one. */
  datatype Tick = Tick(rx: Received, newSecond: bool)

  /** What the loop has done so far: the table, the receive buffer, every
      reply sent, and how many datagrams were refused for their port. */
  datatype Running = Running(table: seq<Conn>, buffer: PacketBuffer, out: seq<Reply>, refused: nat)

  /** One tick folded into the running state: the packet is delivered
      (or refused and counted), then the counters are cleared if a new
      second began. */
  function Absorb(s: Running, t: Tick): (r: Running)
    requires IsTable(s.table)
    ensures IsTable(r.table)
    ensures s.refused <= r.refused <= s.refused + 1
    ensures |s.out| <= |r.out| && r.out[..|s.out|] == s.out
    ensures forall i :: 0 <= i < TableSize ==>
              r.table[i].localPort == s.table[i].localPort && r.table[i].remotePort == s.table[i].remotePort
    ensures forall i :: ReportedCount <= i < TableSize ==> s.table[i].totalData <= r.table[i].totalData
    ensures t.newSecond ==> forall i :: 0 <= i < ReportedCount ==> r.table[i].totalData == 0
  {
    var s1 :=
      match ReadOne(s.table, s.buffer, t.rx)
      case Err(_) => s.(buffer := Receive(s.buffer, t.rx).0, refused := s.refused + 1)
      case Ok(d) => Running(d.table, d.buffer, s.out + d.walked.out, s.refused);
    if t.newSecond then s1.(table := ResetCounters(s1.table)) else s1
  }

  /** The receive loop over a finite run of ticks. */
  function ReadLoop(s: Running, ticks: seq<Tick>): (r: Running)
    requires IsTable(s.table)
    ensures IsTable(r.table)
    ensures s.refused <= r.refused <= s.refused + |ticks|
    ensures |s.out| <= |r.out| && r.out[..|s.out|] == s.out
    ensures forall i :: 0 <= i < TableSize ==>
              r.table[i].localPort == s.table[i].localPort && r.table[i].remotePort == s.table[i].remotePort
    ensures forall i :: ReportedCount <= i < TableSize ==> s.table[i].totalData <= r.table[i].totalData
    decreases |ticks|
  {
    if |ticks| == 0 then s else ReadLoop(Absorb(s, ticks[0]), ticks[1..])
  }

  /** `sctp_t::connect`: the association at `local_port` sends its INIT;
      no other entry changes. The C++ indexes the table unchecked, so
      the caller must pass a port below 1024. */
  function Open(crc: Crc32c, table: seq<Conn>, localPort: int, remotePort: int, memory: seq<byte>): (r: (seq<Conn>, seq<byte>))
    requires IsTable(table) && 0 <= localPort < TableSize && |memory| == Capacity
    ensures IsTable(r.0)
    ensures forall i :: 0 <= i < TableSize && i != localPort ==> r.0[i] == table[i]
    ensures r.0[localPort].localPort == localPort && r.0[localPort].remotePort == remotePort
    ensures r.1 == Seal(crc, CommonHeaderBytes(HeaderOf(r.0[localPort])) + InitChunkBytes(InitFor(localPort)))
  {
    var (c, p) := Connect(crc, table[localPort], localPort, remotePort, memory);
    (table[localPort := c], p)
  }
}

=== FILE: findings.dfy ===
/**
  The C++ as written, where it departs from what it evidently means to
  do, next to the inputs that show the departure. The rest of the model
  uses the corrected definitions (`Dispatch.Route`, `Inbound.Step`,
  `Inbound.ReadParam`); each lemma here names both sides.
 */
module Findings {
  import opened Bytes
  import opened Wire
  import opened Cursor
  import opened Association
  import opened Outcomes
  import opened Inbound
  import opened Dispatch
  import opened Chunks

  // ---------------------------------------------------------------------
  // 1. connections[local_port] with any port the network sends

  /** The index `read_loop` uses into `connections[1024]`: the destination
      port of whatever arrived, unchecked. */
  function IndexAsWritten(b: PacketBuffer, rx: Received): (r: int)
    ensures 0 <= r < 0x1_0000
    ensures rx.Datagram? && IpHeaderSize + CommonHeaderSize <= |rx.octets| ==>
              r == FromBe16(rx.octets[IpHeaderSize + DstPortOffset..IpHeaderSize + DstPortOffset + 2]) as int
  {
    var (b1, n) := Receive(b, rx);
    var b2 := Skip(b1, IpHeaderSize);
    assert Load(b2, DstPortOffset, 2) == b1.data[IpHeaderSize + DstPortOffset..IpHeaderSize + DstPortOffset + 2];
    PortAt(b2) as int
  }

  /** A minimal datagram addressed to `port`: a zero IP header and a
      common header with that destination port. */
  function PortProbe(port: u16): (r: seq<byte>)
    ensures |r| == IpHeaderSize + CommonHeaderSize
    ensures FromBe16(r[IpHeaderSize + DstPortOffset..IpHeaderSize + DstPortOffset + 2]) == port
  {
    var h := CommonHeader(0, port, [0, 0, 0, 0], [0, 0, 0, 0]);
    CommonHeaderRoundTrip(h);
    var w := CommonHeaderBytes(h);
    assert (seq(IpHeaderSize, _ => 0) + w)[IpHeaderSize + DstPortOffset..IpHeaderSize + DstPortOffset + 2]
        == w[DstPortOffset..DstPortOffset + 2];
    seq(IpHeaderSize, _ => 0) + w
  }

  /** Any SCTP packet to port 5000 reaching the raw socket makes the C++
      index past the end of the table; the corrected routing refuses it
      and leaves the table alone. */
  lemma PortBeyondTable(table: seq<Conn>, b: PacketBuffer)
    requires IsTable(table)
    ensures IndexAsWritten(b, Datagram(PortProbe(5000))) == 5000 >= TableSize
    ensures ReadOne(table, b, Datagram(PortProbe(5000))) == Err(PortOutOfRange(5000))
  {
  }

  // ---------------------------------------------------------------------
  // How a C++ loop as written ends, within a number of turns

  /** `Exited`: the loop condition failed with the cursor at `cursor` and
      the count at `left`; the cursor may lie past the buffer, which is
      harmless as long as nothing reads there. `ReadsPastArray`: the next
      turn would read at `cursor`, outside the 10240-octet array.
      `StillLooping`: neither has happened within the turns allowed. */
  datatype LoopEnd = Exited(cursor: int, left: int) | ReadsPastArray(cursor: int) | StillLooping

  // ---------------------------------------------------------------------
  // 2. A chunk length of 0 in decode_packet

  /** The `while (tot > 0)` loop of `decode_packet` as written, over
      chunks whose handlers leave the cursor where it is (every kind but
      INIT ACK): `skip(len)`, `tot -= len`, with no check on `len`, for
      at most `fuel` turns. The cursor moves exactly as far as `tot`
      falls. */
  function ChunkLoopAsWritten(b: PacketBuffer, tot: int, fuel: nat): (r: LoopEnd)
    ensures r.Exited? ==> r.left <= 0 && r.cursor - b.ptr == tot - r.left
    ensures r.Exited? && tot > 0 ==> b.ptr < r.cursor
    ensures r.ReadsPastArray? ==> Capacity < r.cursor + ChunkHeaderSize
    decreases fuel
  {
    if tot <= 0 then Exited(b.ptr, tot)
    else if fuel == 0 then StillLooping
    else if b.ptr + ChunkHeaderSize > Capacity then ReadsPastArray(b.ptr)
    else
      var len := ChunkLengthAt(b) as int;
      if tot - len <= 0 then Exited(b.ptr + len, tot - len)
      else if b.ptr + len > Capacity then ReadsPastArray(b.ptr + len)
      else ChunkLoopAsWritten(Skip(b, len), tot - len, fuel - 1)
  }

  /** A chunk other than an INIT ACK declaring length 0 never lets the
      loop end: the cursor and `tot` come back unchanged, however many
      turns are allowed. */
  lemma {:induction false} ZeroChunkLengthSpins(b: PacketBuffer, tot: int, fuel: nat)
    requires tot > 0 && b.ptr + ChunkHeaderSize <= Capacity && ChunkLengthAt(b) == 0
    requires ChunkKindAt(b) != InitAck
    ensures ChunkLoopAsWritten(b, tot, fuel) == StillLooping
    decreases fuel
  {
    if fuel > 0 {
      assert Skip(b, 0) == b;
      ZeroChunkLengthSpins(b, tot, fuel - 1);
    }
  }

  /** The corrected walk stops at once on such a chunk, with no effect. */
  lemma ZeroChunkLengthStops(c: Conn, b: PacketBuffer, end: int, tot: int)
    requires end <= Capacity && tot > 0 && b.ptr + ChunkHeaderSize <= end && ChunkLengthAt(b) == 0
    ensures WalkChunks(c, b, end, tot) == Walked(c, b.ptr, [], Some(ZeroChunkLength))
  {
  }

  /** Conformant traffic reaches that chunk length. Section 3.2 of RFC
      4960 pads a chunk to a multiple of four octets; three octets of
      padding followed by a DATA chunk read as a chunk header whose
      length is the last padding octet and the DATA type octet, both 0.
      The C++ loop, entered at a chunk padded so, never ends. */
  lemma PaddedDataSpins(b: PacketBuffer, ch: Chunk, tot: int, fuel: nat)
    requires Plain(ch) && tot > |ChunkBytes(ch)| + 3 && b.ptr + |ChunkBytes(ch)| + 4 <= Capacity
    requires b.data[b.ptr..b.ptr + |ChunkBytes(ch)| + 4] == ChunkBytes(ch) + [0, 0, 0, DataCode]
    ensures fuel > 0 ==> ChunkLoopAsWritten(b, tot, fuel) == StillLooping
  {
    if fuel > 0 {
      var n := |ChunkBytes(ch)|;
      PaddedChunkAt(b, ch);
      assert ChunkLoopAsWritten(b, tot, fuel) == ChunkLoopAsWritten(Skip(b, n), tot - n, fuel - 1);
      ZeroChunkLengthSpins(Skip(b, n), tot - n, fuel - 1);
    }
  }

  /** The corrected walk handles the padded chunk, then stops on the
      padding with a zero chunk length. */
  lemma PaddedDataStops(c: Conn, b: PacketBuffer, ch: Chunk, tot: int)
    requires Plain(ch) && tot > |ChunkBytes(ch)| + 3 && b.ptr + |ChunkBytes(ch)| + 4 <= Capacity
    requires b.data[b.ptr..b.ptr + |ChunkBytes(ch)| + 4] == ChunkBytes(ch) + [0, 0, 0, DataCode]
    ensures WalkChunks(c, b, Capacity, tot)
         == Walked(Respond(c, ch).0, b.ptr + |ChunkBytes(ch)|, Respond(c, ch).1, Some(ZeroChunkLength))
  {
    var n := |ChunkBytes(ch)|;
    PaddedChunkAt(b, ch);
    WalkChunksFirst(c, b, Capacity, tot, tot - n, ch);
    ZeroChunkLengthStops(Respond(c, ch).0, Skip(b, n), Capacity, tot - n);
  }

  /** A chunk image followed by three zero octets and a DATA type octet:
      the chunk reads back with its own length, and the header read
      right after it has length 0. */
  lemma PaddedChunkAt(b: PacketBuffer, ch: Chunk)
    requires ChunkHeaderSize + |ch.body| < 0x1_0000 && b.ptr + |ChunkBytes(ch)| + 4 <= Capacity
    requires b.data[b.ptr..b.ptr + |ChunkBytes(ch)| + 4] == ChunkBytes(ch) + [0, 0, 0, DataCode]
    ensures b.data[b.ptr..b.ptr + |ChunkBytes(ch)|] == ChunkBytes(ch)
    ensures ChunkLengthAt(b) as int == |ChunkBytes(ch)|
    ensures ChunkLengthAt(Skip(b, |ChunkBytes(ch)|)) == 0
  {
    var n := |ChunkBytes(ch)|;
    SplitWindow(b.data, b.ptr, ChunkBytes(ch), [0, 0, 0, DataCode]);
    ChunkAt(b, ch);
    assert Load(Skip(b, n), LengthOffset, 2) == [0, DataCode];
  }

  // ---------------------------------------------------------------------
  // 3. and 4. The parameter loop of decode_init_ack

  /** One parameter as the loop body of `decode_init_ack` moves through
      it: the cursor moves 2, 2 and `opt_len - 4`, and `len` falls by
      `opt_len`. */
  datatype ParamStepAsWritten = ParamStepAsWritten(next: int, len: int)

  /** The cursor moves by the declared length, whatever it is, and `len`
      falls by the same amount. */
  function ParamTurnAsWritten(b: PacketBuffer, len: int): (r: ParamStepAsWritten)
    requires b.ptr + ParamHeaderSize <= Capacity
    ensures r.next - b.ptr == len - r.len == FromBe16(Load(b, 2, 2)) as int
  {
    var b1 := Skip(b, 2);
    var optLen := FromBe16(Load(b1, 0, 2)) as int;
    var b2 := Skip(b1, 2);
    assert Load(b1, 0, 2) == Load(b, 2, 2);
    ParamStepAsWritten(b2.ptr + (optLen - ParamHeaderSize), len - optLen)
  }

  /** The `memcpy` length the same loop body uses for a type-7 parameter,
      before any skip: `opt_len - 4` octets into the 32768-octet `cookie`
      array, whatever `opt_len` is. */
  function CookieCopyAsWritten(b: PacketBuffer): (r: Option<int>)
    requires b.ptr + ParamHeaderSize <= Capacity
    ensures r.Some? <==> FromBe16(Load(b, 0, 2)) == CookieParamType
    ensures r.Some? ==> -ParamHeaderSize <= r.value < 0x1_0000 - ParamHeaderSize
  {
    var optType := FromBe16(Load(b, 0, 2));
    var optLen := FromBe16(Load(Skip(b, 2), 0, 2)) as int;
    if optType == CookieParamType then Some(optLen - ParamHeaderSize) else None
  }

  /** The whole `while (len > 0)` loop as written, for at most `fuel`
      turns. The cursor moves exactly as far as `len` falls. */
  function ParamLoopAsWritten(b: PacketBuffer, len: int, fuel: nat): (r: LoopEnd)
    ensures r.Exited? ==> r.left <= 0 && r.cursor - b.ptr == len - r.left
    ensures r.ReadsPastArray? ==> Capacity < r.cursor + ParamHeaderSize
    decreases fuel
  {
    if len <= 0 then Exited(b.ptr, len)
    else if fuel == 0 then StillLooping
    else if b.ptr + ParamHeaderSize > Capacity then ReadsPastArray(b.ptr)
    else
      var t := ParamTurnAsWritten(b, len);
      if t.len <= 0 then Exited(t.next, t.len)
      else if t.next > Capacity then ReadsPastArray(t.next)
      else ParamLoopAsWritten(Skip(b, t.next - b.ptr), t.len, fuel - 1)
  }

  /** A parameter other than a state cookie declaring length 0:
      `skip(opt_len - 4)` moves the cursor back onto the parameter's own
      header and `len` does not fall, so the loop reads the same parameter
      for ever. (A state cookie of length 0 would first be copied with a
      negative length.) */
  lemma {:induction false} ZeroParamLengthSpins(b: PacketBuffer, len: int, fuel: nat)
    requires len > 0 && b.ptr + ParamHeaderSize <= Capacity && Load(b, 2, 2) == [0, 0]
    requires Load(b, 0, 2) != [0, 7]
    ensures ParamTurnAsWritten(b, len) == ParamStepAsWritten(b.ptr, len)
    ensures fuel > 0 ==> ParamLoopAsWritten(b, len, fuel) == StillLooping
    decreases fuel
  {
    if fuel > 1 {
      assert Skip(b, 0) == b;
      ZeroParamLengthSpins(b, len, fuel - 1);
    }
  }

  /** A parameter other than a state cookie declaring length 3: the C++
      moves the cursor three octets on, into the parameter's own header,
      and with `len` used up the loop exits there. The corrected walk
      refuses the length instead, whatever cookie it has kept. */
  lemma ShortParamMisaligns(b: PacketBuffer, fuel: nat, cookie: Option<seq<byte>>)
    requires b.ptr + ParamHeaderSize <= Capacity && Load(b, 0, 2) == [0, 5] && Load(b, 2, 2) == [0, 3]
    ensures fuel > 0 ==> ParamLoopAsWritten(b, 3, fuel) == Exited(b.ptr + 3, 0)
    ensures WalkParams(b, Capacity, 3, cookie) == Err(BadParameterLength)
  {
    assert Load(Skip(b, 2), 0, 2) == Load(b, 2, 2);
  }

  /** A last parameter whose declared length runs past the array: the
      C++ loop skips it without reading it and exits with the cursor
      outside the buffer. The corrected walk does the same. */
  lemma LongSkipExits(b: PacketBuffer, fuel: nat)
    requires b.ptr == Capacity - ParamHeaderSize && Load(b, 0, 2) == [0, 5] && Load(b, 2, 2) == [0xff, 0xff]
    ensures fuel > 0 ==> ParamLoopAsWritten(b, 4, fuel) == Exited(75771, 4 - 0xffff)
    ensures WalkParams(b, Capacity, 4, None) == Ok(ParamsWalked(75771, None))
  {
    assert Load(Skip(b, 2), 0, 2) == Load(b, 2, 2);
  }

  /** A state cookie parameter of length 2: the copy length is negative,
      which `memcpy` takes as a huge size. */
  lemma ShortCookieCopiesNegative(b: PacketBuffer)
    requires b.ptr + ParamHeaderSize <= Capacity && Load(b, 0, 2) == [0, 7] && Load(b, 2, 2) == [0, 2]
    ensures CookieCopyAsWritten(b) == Some(-2)
  {
    assert Load(Skip(b, 2), 0, 2) == Load(b, 2, 2);
  }

  /** The corrected parameter read refuses every length below 4. */
  lemma ShortParamRefused(b: PacketBuffer, end: int, cookie: Option<seq<byte>>)
    requires end <= Capacity && b.ptr + ParamHeaderSize <= end && FromBe16(Load(b, 2, 2)) < ParamHeaderSize
    ensures ReadParam(b, end, cookie) == Err(BadParameterLength)
  {
  }

  /** A state cookie parameter declaring 40000 octets: the C++ copies
      39996 octets into the 32768-octet stack array. */
  lemma LongCookieOverflows(b: PacketBuffer)
    requires b.ptr + ParamHeaderSize <= Capacity
    requires Load(b, 0, 2) == Be16(CookieParamType) && Load(b, 2, 2) == Be16(40000)
    ensures CookieCopyAsWritten(b) == Some(39996) && 39996 > CookieBufferSize
  {
    assert Load(Skip(b, 2), 0, 2) == Load(b, 2, 2);
  }

  /** The corrected read refuses any state cookie longer than the array. */
  lemma LongCookieRefused(b: PacketBuffer, end: int, cookie: Option<seq<byte>>)
    requires end <= Capacity && b.ptr + ParamHeaderSize <= end
    requires FromBe16(Load(b, 0, 2)) == CookieParamType && FromBe16(Load(b, 2, 2)) as int - ParamHeaderSize > CookieBufferSize
    ensures ReadParam(b, end, cookie) == Err(CookieTooLarge)
  {
    assert Load(Skip(b, 2), 0, 2) == Load(b, 2, 2);
  }
}

=== FILE: handshake.dfy ===
/**
  The client's side of the four-way handshake of section 5.1 of RFC 4960
  as far as this client takes part in it: an INIT ACK image at the cursor
  and what the chunk walk makes of it.
 */
module Handshake {
  import opened Bytes
  import opened Wire
  import opened Cursor
  import opened Checksum
  import opened Association
  import opened Outcomes
  import opened Inbound
  import opened Params
  import opened Chunks

  /** An INIT ACK chunk whose declared length covers its fixed part and
      its unpadded parameter list, and whose list holds a state cookie. */
  predicate WellFormedInitAck(ic: InitChunk, ps: seq<Param>)
  {
    && AllAcceptable(ps)
    && ic.header.kind == InitAckCode
    && ic.header.length as int == InitChunkSize + |ParamsBytes(ps)|
    && LastCookie(ps, None).Some?
  }

  function InitAckBytes(ic: InitChunk, ps: seq<Param>): (r: seq<byte>)
    requires AllAcceptable(ps)
    ensures |r| == InitChunkSize + |ParamsBytes(ps)|
  {
    InitChunkBytes(ic) + ParamsBytes(ps)
  }

  /** The state the INIT ACK leaves: the verification tag is the initiate tag. */
  function Established(c: Conn, ic: InitChunk): Conn
  {
    c.(verification := ic.initiateTag)
  }

  /** The fixed part of an INIT chunk image at the cursor reads back as
      its type, its declared length and its initiate tag. */
  lemma InitChunkAt(b: PacketBuffer, ic: InitChunk)
    requires b.ptr + InitChunkSize <= Capacity
    requires b.data[b.ptr..b.ptr + InitChunkSize] == InitChunkBytes(ic)
    ensures ChunkKindAt(b) == KindOf(ic.header.kind)
    ensures ChunkLengthAt(b) == ic.header.length
    ensures InitiateTagAt(b) == ic.initiateTag
  {
    var w := InitChunkBytes(ic);
    LoadImage(b, w, TypeOffset, 1);
    assert w[..ChunkHeaderSize][TypeOffset] == ic.header.kind;
    LoadImage(b, w, LengthOffset, 2);
    assert w[LengthOffset..LengthOffset + 2] == w[..ChunkHeaderSize][LengthOffset..LengthOffset + 2];
    LoadImage(b, w, InitiateTagOffset, 4);
  }

  /** The fixed part of an INIT ACK image reads back as its type, its
      declared length and its initiate tag, and the parameter walk over
      the rest ends right after the list with its last cookie. */
  lemma InitAckFields(b: PacketBuffer, end: int, ic: InitChunk, ps: seq<Param>)
    requires WellFormedInitAck(ic, ps)
    requires b.ptr + |InitAckBytes(ic, ps)| <= end <= Capacity
    requires b.data[b.ptr..b.ptr + |InitAckBytes(ic, ps)|] == InitAckBytes(ic, ps)
    ensures ChunkKindAt(b) == InitAck
    ensures ChunkLengthAt(b) as int == |InitAckBytes(ic, ps)|
    ensures InitiateTagAt(b) == ic.initiateTag
    ensures InitAckParams(b, end) == Ok(ParamsWalked(b.ptr + |InitAckBytes(ic, ps)|, LastCookie(ps, None)))
  {
    SplitWindow(b.data, b.ptr, InitChunkBytes(ic), ParamsBytes(ps));
    InitChunkAt(b, ic);
    KindOfCodeOf(InitAck);
    var m, w := |ParamsBytes(ps)|, Skip(b, InitChunkSize);
    InitAckParamsWalk(b, end, m);
    WalkParamsImage(w, end, ps, None);
    assert InitAckParams(b, end) == Ok(ParamsWalked(w.ptr + m, LastCookie(ps, None)));
  }

  /** The parameter walk of an INIT ACK covers its declared length less
      the fixed part. */
  lemma InitAckParamsWalk(b: PacketBuffer, end: int, n: int)
    requires end <= Capacity && b.ptr + InitChunkSize <= end && ChunkLengthAt(b) as int == InitChunkSize + n
    ensures InitAckParams(b, end) == WalkParams(Skip(b, InitChunkSize), end, n, None)
  {
  }

  /** An INIT ACK at the cursor: the initiate tag becomes the verification
      tag, one COOKIE ECHO carrying the last cookie goes out, and the
      cursor is left after the parameters rather than at the chunk. */
  lemma InitAckStep(c: Conn, b: PacketBuffer, end: int, ic: InitChunk, ps: seq<Param>)
    requires WellFormedInitAck(ic, ps)
    requires b.ptr + |InitAckBytes(ic, ps)| <= end <= Capacity
    requires b.data[b.ptr..b.ptr + |InitAckBytes(ic, ps)|] == InitAckBytes(ic, ps)
    ensures Step(c, b, end)
         == Ok(Stepped(Established(c, ic), b.ptr + |InitAckBytes(ic, ps)|,
                       [CookieEchoReply(Established(c, ic), LastCookie(ps, None).value)],
                       |InitAckBytes(ic, ps)|))
  {
    InitAckFields(b, end, ic, ps);
    InitAckTurn(c, b, end, ic.initiateTag, |InitAckBytes(ic, ps)|, b.ptr + |InitAckBytes(ic, ps)|, LastCookie(ps, None));
  }

  /** `decode_init_ack` succeeds exactly as its parameter walk does, once
      that walk has found a cookie. */
  lemma DecodedInitAck(c: Conn, b: PacketBuffer, end: int, cursor: int, cookie: Option<seq<byte>>)
    requires end <= Capacity && b.ptr + InitChunkSize <= end
    requires cookie.Some? && InitAckParams(b, end) == Ok(ParamsWalked(cursor, cookie))
    ensures DecodeInitAck(c, b, end)
         == Ok(InitAckDecoded(c.(verification := InitiateTagAt(b)), cursor,
                              CookieEchoReply(c.(verification := InitiateTagAt(b)), cookie.value)))
  {
  }

  /** An INIT ACK chunk whose parameter walk finds a cookie is one turn:
      the tag is adopted, one COOKIE ECHO goes out, and the cursor is left
      where the walk ended. */
  lemma InitAckTurn(c: Conn, b: PacketBuffer, end: int, tag: Raw4, len: int, cursor: int, cookie: Option<seq<byte>>)
    requires end <= Capacity && b.ptr + InitChunkSize <= end
    requires ChunkKindAt(b) == InitAck && ChunkLengthAt(b) as int == len > 0 && InitiateTagAt(b) == tag
    requires cookie.Some? && InitAckParams(b, end) == Ok(ParamsWalked(cursor, cookie))
    ensures Step(c, b, end)
         == Ok(Stepped(c.(verification := tag), cursor, [CookieEchoReply(c.(verification := tag), cookie.value)], len))
  {
    DecodedInitAck(c, b, end, cursor, cookie);
  }

  /** A lone INIT ACK filling the rest of the packet: the walk ends
      without error, but `skip(len)` after `decode_init_ack` has already
      moved the cursor leaves it two chunk lengths on. */
  lemma LoneInitAck(c: Conn, b: PacketBuffer, ic: InitChunk, ps: seq<Param>, n: int)
    requires WellFormedInitAck(ic, ps) && n == |InitAckBytes(ic, ps)|
    requires b.ptr + n <= Capacity
    requires b.data[b.ptr..b.ptr + n] == InitAckBytes(ic, ps)
    ensures WalkChunks(c, b, b.ptr + n, n)
         == Walked(Established(c, ic), b.ptr + 2 * n,
                   [CookieEchoReply(Established(c, ic), LastCookie(ps, None).value)], None)
  {
    InitAckStep(c, b, b.ptr + n, ic, ps);
    SelfSkippingTurn(c, b, b.ptr + n, n, Established(c, ic), [CookieEchoReply(Established(c, ic), LastCookie(ps, None).value)]);
  }

  /** A chunk whose handler already moved the cursor past it, and whose
      length uses up the packet: `skip(len)` moves the cursor on again. */
  lemma SelfSkippingTurn(c: Conn, b: PacketBuffer, end: int, n: int, c': Conn, out: seq<Reply>)
    requires end <= Capacity && n > 0 && Step(c, b, end) == Ok(Stepped(c', b.ptr + n, out, n))
    ensures WalkChunks(c, b, end, n) == Walked(c', b.ptr + 2 * n, out, None)
  {
    WalkChunksLast(c, b, end, n, Stepped(c', b.ptr + n, out, n));
  }

  // ---------------------------------------------------------------------
  // What goes out

  /** `connect` on a fresh member of `connections[]` sends a 32-octet
      INIT with the ports given, a verification tag of zero as section
      8.5.1 of RFC 4960 requires for an INIT, the INIT chunk `InitFor`
      describes (initiate tag and initial TSN both `100 + local_port`),
      and a checksum the peer accepts. */
  lemma ConnectSendsInit(crc: Crc32c, localPort: int, remotePort: int, memory: seq<byte>, p: seq<byte>)
    requires |memory| == Capacity && p == Connect(crc, Initial, localPort, remotePort, memory).1
    ensures |p| == CommonHeaderSize + InitChunkSize
    ensures ParseCommonHeader(p) == CommonHeader(ToU16(localPort), ToU16(remotePort), [0, 0, 0, 0], p[ChecksumOffset..CommonHeaderSize])
    ensures ParseInitChunk(p[CommonHeaderSize..]) == InitFor(localPort)
    ensures ChecksumValid(crc, p)
  {
    var c := Connect(crc, Initial, localPort, remotePort, memory).0;
    var x := CommonHeaderBytes(HeaderOf(c)) + InitChunkBytes(InitFor(localPort));
    SealKeeps(crc, x);
    SealedIsValid(crc, x);
    InitChunkRoundTrip(InitFor(localPort));
    assert p[CommonHeaderSize..] == InitChunkBytes(InitFor(localPort));
    assert p[..ChecksumOffset] == CommonHeaderBytes(HeaderOf(c))[..ChecksumOffset];
    HeaderOfSealed(p, HeaderOf(c));
  }

  /** A packet whose first eight octets are those of a common header
      parses back to that header's ports and tag. */
  lemma HeaderOfSealed(p: seq<byte>, h: CommonHeader)
    requires |p| >= CommonHeaderSize
    requires p[..ChecksumOffset] == CommonHeaderBytes(h)[..ChecksumOffset]
    ensures ParseCommonHeader(p) == h.(checksum := p[ChecksumOffset..CommonHeaderSize])
  {
    var w := CommonHeaderBytes(h);
    assert p[SrcPortOffset..SrcPortOffset + 2] == w[SrcPortOffset..SrcPortOffset + 2];
    assert p[DstPortOffset..DstPortOffset + 2] == w[DstPortOffset..DstPortOffset + 2];
    assert p[TagOffset..TagOffset + 4] == w[TagOffset..TagOffset + 4];
  }

  /** The COOKIE ECHO goes out with the association's verification tag
      and one COOKIE ECHO chunk whose value is the cookie, octet for
      octet, as section 5.1 of RFC 4960 asks. */
  lemma CookieEchoCarries(crc: Crc32c, c: Conn, cookie: seq<byte>, p: seq<byte>)
    requires ChunkHeaderSize + |cookie| < 0x1_0000 && p == CookieEchoPacket(crc, c, cookie)
    ensures |p| == CommonHeaderSize + ChunkHeaderSize + |cookie|
    ensures ParseCommonHeader(p) == HeaderOf(c).(checksum := p[ChecksumOffset..CommonHeaderSize])
    ensures ParseChunkHeader(p[CommonHeaderSize..]) == ChunkHeader(CookieEchoCode, 0, (ChunkHeaderSize + |cookie|) as u16)
    ensures p[CommonHeaderSize + ChunkHeaderSize..] == cookie
    ensures ChecksumValid(crc, p)
  {
    var h := ChunkHeader(CookieEchoCode, 0, (ChunkHeaderSize + |cookie|) as u16);
    var x := CommonHeaderBytes(HeaderOf(c)) + (ChunkHeaderBytes(h) + cookie);
    SealKeeps(crc, x);
    SealedIsValid(crc, x);
    assert p[CommonHeaderSize..] == ChunkHeaderBytes(h) + cookie;
    assert p[CommonHeaderSize + ChunkHeaderSize..] == p[CommonHeaderSize..][ChunkHeaderSize..];
    ChunkHeaderRoundTrip(h);
    assert p[CommonHeaderSize..][..ChunkHeaderSize] == ChunkHeaderBytes(h);
    assert p[..ChecksumOffset] == CommonHeaderBytes(HeaderOf(c))[..ChecksumOffset];
    HeaderOfSealed(p, HeaderOf(c));
  }

  /** A SACK goes out as 28 octets: the association's common header, then
      one 16-octet SACK chunk acknowledging the TSN octets as received,
      with a window of 100000, no gap blocks and no duplicates. */
  lemma SackCarries(crc: Crc32c, c: Conn, tsn: Raw4, p: seq<byte>)
    requires p == SackPacket(crc, c, tsn)
    ensures |p| == CommonHeaderSize + SackChunkSize
    ensures ParseCommonHeader(p) == HeaderOf(c).(checksum := p[ChecksumOffset..CommonHeaderSize])
    ensures ParseSackChunk(p[CommonHeaderSize..]) == SackChunk(ChunkHeader(SackCode, 0, 16), tsn, 100000, 0, 0)
    ensures ChecksumValid(crc, p)
  {
    var x := CommonHeaderBytes(HeaderOf(c)) + SackChunkBytes(SackFor(tsn));
    SealKeeps(crc, x);
    SealedIsValid(crc, x);
    assert p[CommonHeaderSize..] == SackChunkBytes(SackFor(tsn));
    SackChunkRoundTrip(SackFor(tsn));
    assert p[..ChecksumOffset] == CommonHeaderBytes(HeaderOf(c))[..ChecksumOffset];
    HeaderOfSealed(p, HeaderOf(c));
  }

  /** A SHUTDOWN ACK goes out as 16 octets: the association's common
      header and a bare 4-octet SHUTDOWN ACK chunk. */
  lemma ShutdownAckCarries(crc: Crc32c, c: Conn, p: seq<byte>)
    requires p == ShutdownAckPacket(crc, c)
    ensures |p| == CommonHeaderSize + ChunkHeaderSize
    ensures ParseCommonHeader(p) == HeaderOf(c).(checksum := p[ChecksumOffset..CommonHeaderSize])
    ensures ParseChunkHeader(p[CommonHeaderSize..]) == ChunkHeader(ShutdownAckCode, 0, 4)
    ensures ChecksumValid(crc, p)
  {
    var x := CommonHeaderBytes(HeaderOf(c)) + ChunkHeaderBytes(ShutdownAckHeader);
    SealKeeps(crc, x);
    SealedIsValid(crc, x);
    assert p[CommonHeaderSize..] == ChunkHeaderBytes(ShutdownAckHeader);
    ChunkHeaderRoundTrip(ShutdownAckHeader);
    assert p[..ChecksumOffset] == CommonHeaderBytes(HeaderOf(c))[..ChecksumOffset];
    HeaderOfSealed(p, HeaderOf(c));
  }

  /** The handshake step end to end: the octets sent for a well-formed
      INIT ACK carry its initiate tag as verification tag and its last
      state cookie as the COOKIE ECHO value. */
  lemma CookieEchoAnswersInitAck(crc: Crc32c, memory: seq<byte>, c: Conn, ic: InitChunk, ps: seq<Param>, p: seq<byte>)
    requires WellFormedInitAck(ic, ps) && |memory| == Capacity
    requires CommonHeaderSize + ChunkHeaderSize + |LastCookie(ps, None).value| <= Capacity
    requires p == Emit(crc, memory, CookieEchoReply(Established(c, ic), LastCookie(ps, None).value))
    ensures ParseCommonHeader(p).tag == ic.initiateTag
    ensures p[CommonHeaderSize + ChunkHeaderSize..] == LastCookie(ps, None).value
  {
    CookieEchoCarries(crc, Established(c, ic), LastCookie(ps, None).value, p);
  }
}

=== FILE: inbound.dfy ===
/**
  The receive half of `connection_t`: the chunk walk of `decode_packet`,
  its per-chunk dispatch, `decode_data` and the INIT ACK parameter walk
  of `decode_init_ack`.

  Where the C++ would loop forever, copy past a buffer, read outside the
  10240-octet array or use an uninitialised length, the model stops with
  a `DecodeError`. Every read must lie below `end`, the end of the memory
  the walk may touch: `decode_packet` passes the end of the array, so the
  octets left in the buffer past the received datagram are read as the
  C++ reads them.
 */
module Inbound {
  import opened Bytes
  import opened Wire
  import opened Cursor
  import opened Checksum
  import opened Association
  import opened Outcomes

  datatype DecodeError =
    | PastBuffer           // a read would touch memory past the end of the buffer
    | ZeroChunkLength      // a chunk length of 0: the C++ chunk loop never advances
    | BadParameterLength   // an INIT ACK parameter length below 4
    | CookieTooLarge       // a state cookie longer than the stack buffer it is copied into
    | NoCookie             // an INIT ACK without a state cookie: `cookie_len` is never set

  const ParamHeaderSize := 4
  const CookieParamType: u16 := 7
  /** `unsigned char cookie[1024*32]` */
  const CookieBufferSize := 32768

  // ---------------------------------------------------------------------
  // decode_init_ack: the parameter walk

  /** Where the parameter walk left the cursor, and the cookie it kept. */
  datatype ParamsWalked = ParamsWalked(cursor: int, cookie: Option<seq<byte>>)

  /** One parameter read at the cursor: the cursor after it, which may
      lie past the buffer, its length, and the cookie kept once it has
      been seen. */
  datatype ParamTurn = ParamTurn(next: int, optLen: int, kept: Option<seq<byte>>)

  /** The body of the `while (len > 0)` loop of `decode_init_ack`: read
      the type and the length (which covers the 4-octet parameter
      header), copy a type-7 value as the cookie, skip the value. Only
      the cookie copy reads the value, so only a cookie must lie within
      the buffer. */
  function ReadParam(b: PacketBuffer, end: int, cookie: Option<seq<byte>>): (r: Result<ParamTurn, DecodeError>)
    requires end <= Capacity
    ensures b.ptr + ParamHeaderSize > end ==> r == Err(PastBuffer)
    ensures b.ptr + ParamHeaderSize <= end && FromBe16(Load(b, 2, 2)) < ParamHeaderSize ==>
              r == Err(BadParameterLength)
    // any other parameter than a state cookie is skipped, however long it is
    ensures && b.ptr + ParamHeaderSize <= end && FromBe16(Load(b, 2, 2)) >= ParamHeaderSize
            && FromBe16(Load(b, 0, 2)) != CookieParamType
            ==> r.Ok?
    ensures r.Err? ==> r.error in {PastBuffer, BadParameterLength, CookieTooLarge}
    ensures r.Ok? ==> && b.ptr + ParamHeaderSize <= end
                      && r.value.optLen == FromBe16(Load(b, 2, 2)) >= ParamHeaderSize
                      && r.value.next == b.ptr + r.value.optLen
    ensures r.Ok? && FromBe16(Load(b, 0, 2)) != CookieParamType ==> r.value.kept == cookie
    ensures r.Ok? && FromBe16(Load(b, 0, 2)) == CookieParamType ==>
              && r.value.next <= end
              && r.value.kept == Some(b.data[b.ptr + ParamHeaderSize..r.value.next])
              && r.value.optLen - ParamHeaderSize <= CookieBufferSize
  {
    if b.ptr + ParamHeaderSize > end then Err(PastBuffer)
    else
      var optType := FromBe16(Load(b, 0, 2));
      var b1 := Skip(b, 2);
      var optLen := FromBe16(Load(b1, 0, 2)) as int;
      var b2 := Skip(b1, 2);
      if optLen < ParamHeaderSize then Err(BadParameterLength)
      else if optType != CookieParamType then Ok(ParamTurn(b2.ptr + (optLen - ParamHeaderSize), optLen, cookie))
      else if optLen - ParamHeaderSize > CookieBufferSize then Err(CookieTooLarge)
      else if b2.ptr + (optLen - ParamHeaderSize) > end then Err(PastBuffer)
      else Ok(ParamTurn(b2.ptr + (optLen - ParamHeaderSize), optLen, Some(Load(b2, 0, optLen - ParamHeaderSize))))
  }

  /** The `while (len > 0)` loop of `decode_init_ack`: `len` falls by each
      parameter's length; the last type-7 value is the cookie. Padding is
      not skipped. The loop ends as soon as `len` is used up, even with
      the cursor past the buffer; only a further read past it fails. */
  function WalkParams(b: PacketBuffer, end: int, len: int, cookie: Option<seq<byte>>): (r: Result<ParamsWalked, DecodeError>)
    requires end <= Capacity
    ensures r.Ok? && len <= 0 ==> r.value == ParamsWalked(b.ptr, cookie)
    // the walk covers at least the `len` octets it was given
    ensures r.Ok? && len > 0 ==> b.ptr + len <= r.value.cursor
    ensures r.Ok? && r.value.cookie != cookie ==>
              && r.value.cookie.Some?
              && |r.value.cookie.value| <= CookieBufferSize
              && b.ptr + ParamHeaderSize + |r.value.cookie.value| <= r.value.cursor
              && b.ptr + ParamHeaderSize + |r.value.cookie.value| <= end
    ensures r.Err? ==> r.error in {PastBuffer, BadParameterLength, CookieTooLarge}
    decreases len
  {
    if len <= 0 then Ok(ParamsWalked(b.ptr, cookie))
    else
      match ReadParam(b, end, cookie)
      case Err(e) => Err(e)
      case Ok(t) =>
        if len - t.optLen <= 0 then Ok(ParamsWalked(t.next, t.kept))
        else if t.next > end then Err(PastBuffer)
        else WalkParams(Skip(b, t.optLen), end, len - t.optLen, t.kept)
  }

  /** What `decode_init_ack` leaves behind: the new state, the cursor
      after the parameters, and the COOKIE ECHO it sends. */
  datatype InitAckDecoded = InitAckDecoded(conn: Conn, cursor: int, reply: Reply)

  /** The parameter walk `decode_init_ack` runs for the INIT ACK at the
      cursor: it starts after the fixed part and covers the declared
      chunk length minus the fixed part. */
  function InitAckParams(b: PacketBuffer, end: int): (r: Result<ParamsWalked, DecodeError>)
    requires end <= Capacity && b.ptr + InitChunkSize <= end
    ensures r.Ok? && r.value.cookie.Some? ==>
              CommonHeaderSize + ChunkHeaderSize + |r.value.cookie.value| <= Capacity
  {
    var len := FromBe16(Load(b, LengthOffset, 2));
    WalkParams(Skip(b, InitChunkSize), end, len - InitChunkSize, None)
  }

  /** The initiate tag octets of the INIT ACK at the cursor. */
  function InitiateTagAt(b: PacketBuffer): Raw4
    requires b.ptr + InitChunkSize <= Capacity
  {
    Load(b, InitiateTagOffset, 4)
  }

  /** `decode_init_ack`: walk the parameters after the 20-octet fixed
      part, adopt the INIT ACK's initiate tag octets as the verification
      tag, and answer with a COOKIE ECHO carrying the last cookie found. */
  function DecodeInitAck(c: Conn, b: PacketBuffer, end: int): (r: Result<InitAckDecoded, DecodeError>)
    requires end <= Capacity
    ensures r.Ok? ==> b.ptr + InitChunkSize <= end
    ensures r.Ok? ==> InitAckParams(b, end).Ok? && InitAckParams(b, end).value.cookie.Some?
    ensures r.Ok? ==> r.value.conn == c.(verification := InitiateTagAt(b))
    ensures r.Ok? ==> r.value.cursor == InitAckParams(b, end).value.cursor
    ensures r.Ok? ==> r.value.reply == CookieEchoReply(r.value.conn, InitAckParams(b, end).value.cookie.value)
    ensures r.Ok? ==> Sendable(r.value.reply)
    ensures r.Err? ==> r.error in {PastBuffer, BadParameterLength, CookieTooLarge, NoCookie}
  {
    if b.ptr + InitChunkSize > end then Err(PastBuffer)
    else
      var len := FromBe16(Load(b, LengthOffset, 2));
      var b1 := Skip(b, InitChunkSize);
      match WalkParams(b1, end, len - InitChunkSize, None)
      case Err(e) => Err(e)
      case Ok(walked) =>
        assert InitAckParams(b, end) == Ok(walked);
        if walked.cookie.None? then Err(NoCookie)
        else
          var c' := c.(verification := Load(b, InitiateTagOffset, 4));
          Ok(InitAckDecoded(c', walked.cursor, CookieEchoReply(c', walked.cookie.value)))
  }

  // ---------------------------------------------------------------------
  // decode_data

  /** The SACK cadence: a SACK is due on every second DATA chunk. */
  const SackEvery := 2

  /** `decode_data`: add the chunk's declared length to the byte count,
      and on every second DATA chunk send a SACK carrying this chunk's TSN
      octets as they arrived. The TSN is read only when a SACK is due, so
      only then must it lie inside the buffer. */
  function DecodeData(c: Conn, b: PacketBuffer): (r: (Conn, seq<Reply>))
    requires b.ptr + ChunkHeaderSize <= Capacity
    requires c.sck + 1 >= SackEvery ==> b.ptr + DataPrefixSize <= Capacity
    ensures r.0.localPort == c.localPort && r.0.remotePort == c.remotePort
    ensures r.0.verification == c.verification
    ensures r.0.totalData == c.totalData + FromBe16(Load(b, LengthOffset, 2))
    ensures c.sck + 1 >= SackEvery ==>
              r.0.sck == 0
              && r.1 == [SackReply(c.(totalData := r.0.totalData, sck := c.sck + 1), Load(b, DataTsnOffset, 4))]
    ensures c.sck + 1 < SackEvery ==> r.0.sck == c.sck + 1 && r.1 == []
  {
    var c1 := c.(totalData := c.totalData + FromBe16(Load(b, LengthOffset, 2)), sck := c.sck + 1);
    if c1.sck > 1 then
      (c1.(sck := 0), [SackReply(c1, Load(b, DataTsnOffset, 4))])
    else
      (c1, [])
  }

  // ---------------------------------------------------------------------
  // decode_packet

  /** The type octet of the chunk at the cursor, as a kind. */
  function ChunkKindAt(b: PacketBuffer): ChunkKind
    requires b.ptr + ChunkHeaderSize <= Capacity
  {
    KindOf(Load(b, TypeOffset, 1)[0])
  }

  /** The declared length of the chunk at the cursor. */
  function ChunkLengthAt(b: PacketBuffer): u16
    requires b.ptr + ChunkHeaderSize <= Capacity
  {
    FromBe16(Load(b, LengthOffset, 2))
  }

  /** What handling one chunk leaves behind: the new state, the cursor,
      the replies sent, and the chunk's declared length. */
  datatype Stepped = Stepped(conn: Conn, cursor: int, out: seq<Reply>, len: int)

  /** One turn of the `decode_packet` loop up to the `skip(len)`: read the
      chunk header at the cursor and hand the chunk to its handler. The
      length is not checked against the octets left: the handlers read
      only their fixed part, and the `skip(len)` after them happens in
      `WalkTurn`. */
  function Step(c: Conn, b: PacketBuffer, end: int): (r: Result<Stepped, DecodeError>)
    requires end <= Capacity
    ensures b.ptr + ChunkHeaderSize > end ==> r == Err(PastBuffer)
    ensures b.ptr + ChunkHeaderSize <= end && ChunkLengthAt(b) == 0 ==> r == Err(ZeroChunkLength)
    // a chunk other than an INIT ACK is never refused for its length: DATA
    // needs its TSN within reach when a SACK is due, every other kind
    // only its header
    ensures && b.ptr + ChunkHeaderSize <= end && ChunkLengthAt(b) > 0 && ChunkKindAt(b) == Data
            && (c.sck + 1 >= SackEvery ==> b.ptr + DataPrefixSize <= end)
            ==> r.Ok?
    ensures && b.ptr + ChunkHeaderSize <= end && ChunkLengthAt(b) > 0 && ChunkKindAt(b) == Data
            && c.sck + 1 >= SackEvery && b.ptr + DataPrefixSize > end
            ==> r == Err(PastBuffer)
    ensures && b.ptr + ChunkHeaderSize <= end && ChunkLengthAt(b) > 0
            && ChunkKindAt(b) != Data && ChunkKindAt(b) != InitAck
            ==> r.Ok?
    ensures r.Ok? ==> b.ptr + ChunkHeaderSize <= end && r.value.len == ChunkLengthAt(b) as int > 0
    ensures r.Ok? ==> r.value.conn.localPort == c.localPort && r.value.conn.remotePort == c.remotePort
    ensures r.Ok? ==> b.ptr <= r.value.cursor && c.totalData <= r.value.conn.totalData
    ensures r.Ok? && 0 <= c.sck < SackEvery ==> 0 <= r.value.conn.sck < SackEvery
  {
    if b.ptr + ChunkHeaderSize > end then Err(PastBuffer)
    else
      var len := ChunkLengthAt(b) as int;
      if len == 0 then Err(ZeroChunkLength)
      else
        match ChunkKindAt(b)
        case InitAck =>
          (match DecodeInitAck(c, b, end)
           case Err(e) => Err(e)
           case Ok(d) => Ok(Stepped(d.conn, d.cursor, [d.reply], len)))
        case Data =>
          if c.sck + 1 >= SackEvery && b.ptr + DataPrefixSize > end then Err(PastBuffer)
          else
            var (c', out) := DecodeData(c, b);
            Ok(Stepped(c', b.ptr, out, len))
        case Shutdown => Ok(Stepped(c, b.ptr, [ShutdownAckReply(c)], len))
        case _ => Ok(Stepped(c, b.ptr, [], len))
  }

  /** What one turn of the loop does with each kind of chunk. */
  lemma StepHandles(c: Conn, b: PacketBuffer, end: int)
    requires end <= Capacity
    // SHUTDOWN COMPLETE, COOKIE ACK and every other type: no effect at all
    ensures var r := Step(c, b, end);
            r.Ok? && ChunkKindAt(b) !in {InitAck, Data, Shutdown} ==> r.value == Stepped(c, b.ptr, [], r.value.len)
    // SHUTDOWN: one SHUTDOWN ACK, no change of state
    ensures var r := Step(c, b, end);
            r.Ok? && ChunkKindAt(b) == Shutdown ==> r.value == Stepped(c, b.ptr, [ShutdownAckReply(c)], r.value.len)
    // DATA: count the length; every second one is answered by a SACK of its TSN
    ensures var r := Step(c, b, end);
            r.Ok? && ChunkKindAt(b) == Data ==>
              && (c.sck + 1 >= SackEvery ==> b.ptr + DataPrefixSize <= end)
              && r.value.cursor == b.ptr
              && r.value.conn.verification == c.verification
              && r.value.conn.totalData == c.totalData + r.value.len
              && (c.sck + 1 >= SackEvery ==>
                    r.value.conn.sck == 0
                    && r.value.out == [SackReply(c.(totalData := r.value.conn.totalData, sck := c.sck + 1), Load(b, DataTsnOffset, 4))])
              && (c.sck + 1 < SackEvery ==> r.value.conn.sck == c.sck + 1 && r.value.out == [])
    // INIT ACK: adopt the initiate tag, answer with one COOKIE ECHO
    ensures var r := Step(c, b, end);
            r.Ok? && ChunkKindAt(b) == InitAck ==>
              && b.ptr + InitChunkSize <= end
              && r.value.conn == c.(verification := InitiateTagAt(b))
              && InitAckParams(b, end).Ok?
              && InitAckParams(b, end).value.cookie.Some?
              && r.value.cursor == InitAckParams(b, end).value.cursor
              && r.value.out == [CookieEchoReply(r.value.conn, InitAckParams(b, end).value.cookie.value)]
  {
  }

  /** Where the chunk walk stopped: the state, the cursor, every packet
      sent on the way, and the error that stopped it early, if any. */
  datatype Walked = Walked(conn: Conn, cursor: int, out: seq<Reply>, error: Option<DecodeError>)

  /** The `while (tot > 0)` loop of `decode_packet`: handle the chunk at
      the cursor, then `skip(len)` and reduce `tot` by `len`. Effects of
      the chunks before an error stand, as they did in the C++. A cursor
      pushed past the buffer (by a long chunk, or by the double advance
      after an INIT ACK) ends the walk cleanly when `tot` is used up, and
      otherwise stops it, since the next header read would leave the
      buffer. */
  function WalkChunks(c: Conn, b: PacketBuffer, end: int, tot: int): (r: Walked)
    requires end <= Capacity
    ensures r.conn.localPort == c.localPort && r.conn.remotePort == c.remotePort
    ensures 0 <= c.sck < SackEvery ==> 0 <= r.conn.sck < SackEvery
    ensures c.totalData <= r.conn.totalData
    ensures b.ptr <= r.cursor
    ensures r.error.None? ==> b.ptr + tot <= r.cursor
    ensures tot <= 0 ==> r == Walked(c, b.ptr, [], None)
    decreases tot, 1
  {
    if tot <= 0 then Walked(c, b.ptr, [], None)
    else WalkTurn(c, b, end, tot)
  }

  /** One pass through the loop body with `tot > 0`: the chunk at the
      cursor, `skip(len)`, `tot -= len`, and the rest of the loop. */
  function WalkTurn(c: Conn, b: PacketBuffer, end: int, tot: int): (r: Walked)
    requires end <= Capacity && tot > 0
    ensures r.conn.localPort == c.localPort && r.conn.remotePort == c.remotePort
    ensures 0 <= c.sck < SackEvery ==> 0 <= r.conn.sck < SackEvery
    ensures c.totalData <= r.conn.totalData
    ensures b.ptr <= r.cursor
    ensures r.error.None? ==> b.ptr + tot <= r.cursor
    decreases tot, 0
  {
    match Step(c, b, end)
    case Err(e) => Walked(c, b.ptr, [], Some(e))
    case Ok(s) =>
      var next := s.cursor + s.len;
      if tot - s.len <= 0 then Walked(s.conn, next, s.out, None)
      else if next > Capacity then Walked(s.conn, next, s.out, Some(PastBuffer))
      else
        var rest := WalkChunks(s.conn, Skip(b, next - b.ptr), end, tot - s.len);
        Walked(rest.conn, rest.cursor, s.out + rest.out, rest.error)
  }

  /** `decode_packet(buf, total)`: skip the common header, whose tag and
      checksum are never looked at, and walk the chunks in the remaining
      `total - 12` octets. Nothing stops the walk at the end of the
      datagram: padding after the last chunk, or a declared length past
      it, makes the walk read the octets the buffer still holds there. */
  function DecodePacket(c: Conn, b: PacketBuffer, total: int): (r: Walked)
    requires b.ptr + CommonHeaderSize <= Capacity
    ensures r.conn.localPort == c.localPort && r.conn.remotePort == c.remotePort
    ensures 0 <= c.sck < SackEvery ==> 0 <= r.conn.sck < SackEvery
    ensures c.totalData <= r.conn.totalData
    ensures total <= CommonHeaderSize ==> r == Walked(c, b.ptr + CommonHeaderSize, [], None)
  {
    var b1 := Skip(b, CommonHeaderSize);
    WalkChunks(c, b1, Capacity, total - CommonHeaderSize)
  }
}

=== FILE: outcomes.dfy ===
/** Optional values and success-or-error results. */
module Outcomes {

  datatype Option<+T> = None | Some(value: T)

  datatype Result<+T, +E> = Ok(value: T) | Err(error: E)
}

=== FILE: params.dfy ===
/**
  A reference description of the INIT ACK parameter list (section 3.2.1
  of RFC 4960: type, length covering the 4-octet parameter header, value)
  and what the parameter walk of `decode_init_ack` makes of it.
 */
module Params {
  import opened Bytes
  import opened Cursor
  import opened Outcomes
  import opened Inbound

  /** One variable-length parameter: its type and its value octets. */
  datatype Param = Param(ptype: u16, body: seq<byte>)

  /** The declared length fits the 16-bit length field, and a state
      cookie fits the buffer it is copied into. */
  predicate Acceptable(p: Param)
  {
    && ParamHeaderSize + |p.body| < 0x1_0000
    && (p.ptype == CookieParamType ==> |p.body| <= CookieBufferSize)
  }

  predicate AllAcceptable(ps: seq<Param>)
  {
    forall j :: 0 <= j < |ps| ==> Acceptable(ps[j])
  }

  /** The wire image of one parameter, without padding. */
  function ParamBytes(p: Param): (r: seq<byte>)
    requires Acceptable(p)
    ensures |r| == ParamHeaderSize + |p.body|
    ensures r[..2] == Be16(p.ptype)
    ensures r[2..4] == Be16((ParamHeaderSize + |p.body|) as u16)
    ensures r[ParamHeaderSize..] == p.body
  {
    Be16(p.ptype) + Be16((ParamHeaderSize + |p.body|) as u16) + p.body
  }

  /** The wire image of a parameter list: the images back to back. */
  function ParamsBytes(ps: seq<Param>): (r: seq<byte>)
    requires AllAcceptable(ps)
    ensures |ps| > 0 ==> |r| >= ParamHeaderSize
    ensures |ps| == 0 <==> |r| == 0
  {
    if |ps| == 0 then []
    else ParamBytes(ps[0]) + ParamsBytes(ps[1..])
  }

  /** The value of the last state cookie parameter, or `cookie` when the
      list holds none. */
  function LastCookie(ps: seq<Param>, cookie: Option<seq<byte>>): (r: Option<seq<byte>>)
    ensures r != cookie ==> exists j :: 0 <= j < |ps| && ps[j].ptype == CookieParamType && r == Some(ps[j].body)
    ensures (forall j :: 0 <= j < |ps| ==> ps[j].ptype != CookieParamType) ==> r == cookie
  {
    if |ps| == 0 then cookie
    else LastCookie(ps[1..], Kept(ps[0], cookie))
  }

  /** The last cookie is the value of the last type-7 parameter: no later
      parameter is a cookie. */
  lemma {:induction false} LastCookieIsLast(ps: seq<Param>, cookie: Option<seq<byte>>, j: int)
    requires 0 <= j < |ps| && ps[j].ptype == CookieParamType
    requires forall k :: j < k < |ps| ==> ps[k].ptype != CookieParamType
    ensures LastCookie(ps, cookie) == Some(ps[j].body)
    decreases |ps|
  {
    if j == 0 {
      var rest := ps[1..];
      assert forall k :: 0 <= k < |rest| ==> rest[k].ptype != CookieParamType by {
        forall k | 0 <= k < |rest|
          ensures rest[k].ptype != CookieParamType
        {
          assert rest[k] == ps[k + 1];
        }
      }
    } else {
      LastCookieIsLast(ps[1..], Kept(ps[0], cookie), j - 1);
    }
  }

  /** The octets of one parameter image at the cursor read back as its
      type, its length and its value. */
  lemma ParamAt(b: PacketBuffer, p: Param)
    requires Acceptable(p)
    requires b.ptr + |ParamBytes(p)| <= Capacity
    requires b.data[b.ptr..b.ptr + |ParamBytes(p)|] == ParamBytes(p)
    ensures FromBe16(Load(b, 0, 2)) == p.ptype
    ensures FromBe16(Load(Skip(b, 2), 0, 2)) == ParamHeaderSize + |p.body|
    ensures Load(Skip(b, ParamHeaderSize), 0, |p.body|) == p.body
  {
    var w := b.data[b.ptr..b.ptr + |ParamBytes(p)|];
    assert Load(b, 0, 2) == w[..2];
    assert Load(Skip(b, 2), 0, 2) == w[2..4];
    assert Load(Skip(b, ParamHeaderSize), 0, |p.body|) == w[ParamHeaderSize..];
  }

  /** The cookie the walk keeps after the parameter `p`. */
  function Kept(p: Param, cookie: Option<seq<byte>>): (r: Option<seq<byte>>)
    ensures p.ptype == CookieParamType ==> r == Some(p.body)
    ensures p.ptype != CookieParamType ==> r == cookie
  {
    if p.ptype == CookieParamType then Some(p.body) else cookie
  }

  /** One turn of the walk over a parameter image: the cursor moves past
      it, the count falls by its length, a cookie value is kept. */
  lemma WalkParamsStep(b: PacketBuffer, end: int, p: Param, len: int, cookie: Option<seq<byte>>)
    requires Acceptable(p)
    requires b.ptr + |ParamBytes(p)| <= end <= Capacity
    requires b.data[b.ptr..b.ptr + |ParamBytes(p)|] == ParamBytes(p)
    requires len > 0
    ensures ReadParam(b, end, cookie) == Ok(ParamTurn(b.ptr + |ParamBytes(p)|, |ParamBytes(p)|, Kept(p, cookie)))
    ensures WalkParams(b, end, len, cookie)
         == WalkParams(Skip(b, |ParamBytes(p)|), end, len - |ParamBytes(p)|, Kept(p, cookie))
  {
    ReadParamImage(b, end, p, cookie);
    WalkParamsTurn(b, end, len, cookie, |ParamBytes(p)|, Kept(p, cookie));
  }

  /** One parameter read at the cursor is one turn of the walk. */
  lemma WalkParamsTurn(b: PacketBuffer, end: int, len: int, cookie: Option<seq<byte>>, n: int, kept: Option<seq<byte>>)
    requires end <= Capacity && len > 0 && b.ptr + n <= end && ReadParam(b, end, cookie) == Ok(ParamTurn(b.ptr + n, n, kept))
    ensures n >= ParamHeaderSize
    ensures WalkParams(b, end, len, cookie) == WalkParams(Skip(b, n), end, len - n, kept)
  {
  }

  /** A parameter image at the cursor is read as one turn: the cursor
      moves past it and its value is kept when it is a cookie. */
  lemma ReadParamImage(b: PacketBuffer, end: int, p: Param, cookie: Option<seq<byte>>)
    requires Acceptable(p)
    requires b.ptr + |ParamBytes(p)| <= end <= Capacity
    requires b.data[b.ptr..b.ptr + |ParamBytes(p)|] == ParamBytes(p)
    ensures ReadParam(b, end, cookie) == Ok(ParamTurn(b.ptr + |ParamBytes(p)|, |ParamBytes(p)|, Kept(p, cookie)))
  {
    ParamAt(b, p);
    var b2 := Skip(Skip(b, 2), 2);
    assert b2 == Skip(b, ParamHeaderSize);
  }

  /** The image of a non-empty list at the cursor: the first parameter's
      image, then the image of the rest right after it. */
  lemma ParamsWindow(b: PacketBuffer, ps: seq<Param>)
    requires |ps| > 0 && AllAcceptable(ps)
    requires b.ptr + |ParamsBytes(ps)| <= Capacity
    requires b.data[b.ptr..b.ptr + |ParamsBytes(ps)|] == ParamsBytes(ps)
    ensures AllAcceptable(ps[1..])
    ensures |ParamsBytes(ps)| == |ParamBytes(ps[0])| + |ParamsBytes(ps[1..])|
    ensures b.data[b.ptr..b.ptr + |ParamBytes(ps[0])|] == ParamBytes(ps[0])
    ensures Skip(b, |ParamBytes(ps[0])|).data[b.ptr + |ParamBytes(ps[0])|..b.ptr + |ParamsBytes(ps)|]
         == ParamsBytes(ps[1..])
  {
    AllAcceptableTail(ps);
    SplitWindow(b.data, b.ptr, ParamBytes(ps[0]), ParamsBytes(ps[1..]));
  }

  /** The inductive step of `WalkParamsImage`: with the first image at
      the cursor, the walk over the whole list is the walk over its rest,
      from right after that image. */
  lemma WalkParamsImageStep(b: PacketBuffer, end: int, ps: seq<Param>, cookie: Option<seq<byte>>)
    requires |ps| > 0 && AllAcceptable(ps) && AllAcceptable(ps[1..])
    requires |ParamsBytes(ps)| == |ParamBytes(ps[0])| + |ParamsBytes(ps[1..])|
    requires b.ptr + |ParamBytes(ps[0])| <= end <= Capacity
    requires b.data[b.ptr..b.ptr + |ParamBytes(ps[0])|] == ParamBytes(ps[0])
    ensures WalkParams(b, end, |ParamsBytes(ps)|, cookie)
         == WalkParams(Skip(b, |ParamBytes(ps[0])|), end, |ParamsBytes(ps[1..])|, Kept(ps[0], cookie))
  {
    WalkParamsStep(b, end, ps[0], |ParamsBytes(ps)|, cookie);
  }

  /** The walk over an unpadded, well-formed parameter list at the cursor
      ends exactly after the list and keeps the last cookie in it. */
  lemma {:induction false} WalkParamsImage(b: PacketBuffer, end: int, ps: seq<Param>, cookie: Option<seq<byte>>)
    requires AllAcceptable(ps)
    requires b.ptr + |ParamsBytes(ps)| <= end <= Capacity
    requires b.data[b.ptr..b.ptr + |ParamsBytes(ps)|] == ParamsBytes(ps)
    ensures WalkParams(b, end, |ParamsBytes(ps)|, cookie)
         == Ok(ParamsWalked(b.ptr + |ParamsBytes(ps)|, LastCookie(ps, cookie)))
    decreases |ps|
  {
    if |ps| > 0 {
      var kept := Kept(ps[0], cookie);
      var b' := Skip(b, |ParamBytes(ps[0])|);
      var restLen := |ParamsBytes(ps[1..])|;
      ParamsWindow(b, ps);
      WalkParamsImageStep(b, end, ps, cookie);
      WalkParamsImage(b', end, ps[1..], kept);
      assert WalkParams(b, end, |ParamsBytes(ps)|, cookie) == WalkParams(b', end, restLen, kept);
      assert b'.ptr + restLen == b.ptr + |ParamsBytes(ps)|;
    } else {
      WalkParamsDone(b, end, |ParamsBytes(ps)|, cookie);
    }
  }

  /** With nothing left to walk the cursor stays and the cookie is kept. */
  lemma WalkParamsDone(b: PacketBuffer, end: int, len: int, cookie: Option<seq<byte>>)
    requires end <= Capacity && len <= 0
    ensures WalkParams(b, end, len, cookie) == Ok(ParamsWalked(b.ptr, cookie))
  {
  }

  lemma AllAcceptableTail(ps: seq<Param>)
    requires |ps| > 0 && AllAcceptable(ps)
    ensures AllAcceptable(ps[1..])
  {
    forall k | 0 <= k < |ps[1..]|
      ensures Acceptable(ps[1..][k])
    {
      assert ps[1..][k] == ps[k + 1];
    }
  }

  /** Padding is not skipped: a list whose first value is padded by three
      zero octets to a multiple of four, as section 3.2.1 of RFC 4960
      requires, is refused whenever the next parameter type is below 256,
      as the state cookie's type is. */
  lemma PaddedParamsRefused(b: PacketBuffer, end: int, p: Param, q: Param, len: int)
    requires Acceptable(p) && Acceptable(q) && |p.body| % 4 == 1 && q.ptype < 0x100
    requires b.ptr + |ParamBytes(p)| + 3 + |ParamBytes(q)| <= end <= Capacity
    requires b.data[b.ptr..b.ptr + |ParamBytes(p)| + 3 + |ParamBytes(q)|] == ParamBytes(p) + ([0, 0, 0] + ParamBytes(q))
    requires len > |ParamBytes(p)|
    ensures WalkParams(b, end, len, None) == Err(BadParameterLength)
  {
    var n := |ParamBytes(p)|;
    var pad := [0, 0, 0] + ParamBytes(q);
    SplitWindow(b.data, b.ptr, ParamBytes(p), pad);
    WalkParamsStep(b, end, p, len, None);
    var b3 := Skip(b, n);
    PadReadsZeroLength(b3, q, pad);
    WalkParamsRefused(b3, end, len - n, Kept(p, None));
  }

  /** Three zero octets of padding before a parameter whose type is below
      256 read as a parameter length of zero. */
  lemma PadReadsZeroLength(b: PacketBuffer, q: Param, pad: seq<byte>)
    requires Acceptable(q) && q.ptype < 0x100 && pad == [0, 0, 0] + ParamBytes(q)
    requires b.ptr + |pad| <= Capacity && b.data[b.ptr..b.ptr + |pad|] == pad
    ensures FromBe16(Load(b, 2, 2)) == 0
  {
    LoadImage(b, pad, 2, 2);
    assert ParamBytes(q)[..2] == Be16(q.ptype);
    assert pad[2..4] == [0, ParamBytes(q)[0]];
  }

  /** Two zero octets of padding before a parameter read as a parameter
      of type 0 whose length is the next parameter's type: the walk does
      not refuse it but skips that many octets, out of step with the
      parameters that follow. */
  lemma PadTwoMisreads(b: PacketBuffer, end: int, q: Param, pad: seq<byte>, cookie: Option<seq<byte>>)
    requires Acceptable(q) && q.ptype >= ParamHeaderSize as u16 && pad == [0, 0] + ParamBytes(q)
    requires b.ptr + |pad| <= end <= Capacity && b.data[b.ptr..b.ptr + |pad|] == pad
    ensures ReadParam(b, end, cookie) == Ok(ParamTurn(b.ptr + q.ptype as int, q.ptype as int, cookie))
  {
    LoadImage(b, pad, 0, 2);
    LoadImage(b, pad, 2, 2);
    assert pad[0..2] == [0, 0];
    assert pad[2..4] == ParamBytes(q)[..2] == Be16(q.ptype);
  }

  /** A parameter length below the parameter header's own four octets
      stops the walk. */
  lemma WalkParamsRefused(b: PacketBuffer, end: int, len: int, cookie: Option<seq<byte>>)
    requires end <= Capacity && len > 0 && b.ptr + ParamHeaderSize <= end
    requires FromBe16(Load(b, 2, 2)) < ParamHeaderSize
    ensures WalkParams(b, end, len, cookie) == Err(BadParameterLength)
  {
    assert ReadParam(b, end, cookie) == Err(BadParameterLength);
  }
}

=== FILE: wire.dfy ===
/**
  The packed wire layouts and chunk type codes of the SCTP subset the
  client speaks (RFC 4960 sections 3.1 to 3.3): one datatype per struct,
  its octet image, the parse back from octets, and the field offsets the
  structs put each member at.
 */
module Wire {
  import opened Bytes

  // common_header_t, RFC 4960 section 3.1
  const SrcPortOffset := 0
  const DstPortOffset := 2
  const TagOffset := 4
  const ChecksumOffset := 8
  const CommonHeaderSize := 12

  // chunk_header_t, RFC 4960 section 3.2
  const TypeOffset := 0
  const FlagsOffset := 1
  const LengthOffset := 2
  const ChunkHeaderSize := 4

  // init_chunk_t, the fixed part of INIT and INIT ACK (sections 3.3.2, 3.3.3)
  const InitiateTagOffset := 4
  const InitARwndOffset := 8
  const OutStreamsOffset := 12
  const InStreamsOffset := 14
  const InitialTsnOffset := 16
  const InitChunkSize := 20

  // sack_chunk_t, the fixed part of SACK (section 3.3.4)
  const CumulativeTsnOffset := 4
  const SackARwndOffset := 8
  const NumGapsOffset := 12
  const NumDupsOffset := 14
  const SackChunkSize := 16

  // data_chunk_t, the prefix of DATA that is read (section 3.3.1)
  const DataTsnOffset := 4
  const DataPrefixSize := 8

  // Chunk type codes, RFC 4960 section 3.2
  const DataCode: byte := 0
  const InitCode: byte := 1
  const InitAckCode: byte := 2
  const SackCode: byte := 3
  const ShutdownCode: byte := 7
  const ShutdownAckCode: byte := 8
  const CookieEchoCode: byte := 10
  const CookieAckCode: byte := 11
  const ShutdownCompleteCode: byte := 14

  datatype ChunkKind =
    | Data | Init | InitAck | Sack | Shutdown | ShutdownAck
    | CookieEcho | CookieAck | ShutdownComplete
    | Unknown(code: byte)

  function CodeOf(k: ChunkKind): byte
  {
    match k
    case Data => DataCode
    case Init => InitCode
    case InitAck => InitAckCode
    case Sack => SackCode
    case Shutdown => ShutdownCode
    case ShutdownAck => ShutdownAckCode
    case CookieEcho => CookieEchoCode
    case CookieAck => CookieAckCode
    case ShutdownComplete => ShutdownCompleteCode
    case Unknown(c) => c
  }

  /** The codes that name a chunk kind this implementation knows. */
  predicate IsKnownCode(code: byte)
  {
    code in {DataCode, InitCode, InitAckCode, SackCode, ShutdownCode,
             ShutdownAckCode, CookieEchoCode, CookieAckCode, ShutdownCompleteCode}
  }

  /** Classifies the type octet of a chunk header. */
  function KindOf(code: byte): (k: ChunkKind)
    ensures CodeOf(k) == code
    ensures k.Unknown? <==> !IsKnownCode(code)
  {
    if code == DataCode then Data
    else if code == InitCode then Init
    else if code == InitAckCode then InitAck
    else if code == SackCode then Sack
    else if code == ShutdownCode then Shutdown
    else if code == ShutdownAckCode then ShutdownAck
    else if code == CookieEchoCode then CookieEcho
    else if code == CookieAckCode then CookieAck
    else if code == ShutdownCompleteCode then ShutdownComplete
    else Unknown(code)
  }

  /** Every kind is recovered from its code, so no two kinds share a code
      and the codes are pairwise distinct. */
  lemma KindOfCodeOf(k: ChunkKind)
    requires k.Unknown? ==> !IsKnownCode(k.code)
    ensures KindOf(CodeOf(k)) == k
  {
  }

  lemma CodesDistinct(k1: ChunkKind, k2: ChunkKind)
    requires k1.Unknown? ==> !IsKnownCode(k1.code)
    requires k2.Unknown? ==> !IsKnownCode(k2.code)
    ensures CodeOf(k1) == CodeOf(k2) <==> k1 == k2
  {
    KindOfCodeOf(k1);
    KindOfCodeOf(k2);
  }

  // ---------------------------------------------------------------------
  // common_header_t

  datatype CommonHeader = CommonHeader(srcPort: u16, dstPort: u16, tag: Raw4, checksum: Raw4)

  function CommonHeaderBytes(h: CommonHeader): (r: seq<byte>)
    ensures |r| == CommonHeaderSize
    ensures r[SrcPortOffset..SrcPortOffset + 2] == Be16(h.srcPort)
    ensures r[DstPortOffset..DstPortOffset + 2] == Be16(h.dstPort)
    ensures r[TagOffset..TagOffset + 4] == h.tag
    ensures r[ChecksumOffset..ChecksumOffset + 4] == h.checksum
  {
    Be16(h.srcPort) + Be16(h.dstPort) + h.tag + h.checksum
  }

  function ParseCommonHeader(s: seq<byte>): (h: CommonHeader)
    requires |s| >= CommonHeaderSize
    ensures CommonHeaderBytes(h) == s[..CommonHeaderSize]
  {
    Be16OfFromBe16(s[SrcPortOffset..SrcPortOffset + 2]);
    Be16OfFromBe16(s[DstPortOffset..DstPortOffset + 2]);
    CommonHeader(FromBe16(s[SrcPortOffset..SrcPortOffset + 2]),
                 FromBe16(s[DstPortOffset..DstPortOffset + 2]),
                 s[TagOffset..TagOffset + 4],
                 s[ChecksumOffset..ChecksumOffset + 4])
  }

  lemma CommonHeaderRoundTrip(h: CommonHeader)
    ensures ParseCommonHeader(CommonHeaderBytes(h)) == h
  {
  }

  // ---------------------------------------------------------------------
  // chunk_header_t

  datatype ChunkHeader = ChunkHeader(kind: byte, flags: byte, length: u16)

  function ChunkHeaderBytes(h: ChunkHeader): (r: seq<byte>)
    ensures |r| == ChunkHeaderSize
    ensures r[TypeOffset] == h.kind && r[FlagsOffset] == h.flags
    ensures r[LengthOffset..LengthOffset + 2] == Be16(h.length)
  {
    [h.kind, h.flags] + Be16(h.length)
  }

  function ParseChunkHeader(s: seq<byte>): (h: ChunkHeader)
    requires |s| >= ChunkHeaderSize
    ensures ChunkHeaderBytes(h) == s[..ChunkHeaderSize]
  {
    Be16OfFromBe16(s[LengthOffset..LengthOffset + 2]);
    ChunkHeader(s[TypeOffset], s[FlagsOffset], FromBe16(s[LengthOffset..LengthOffset + 2]))
  }

  lemma ChunkHeaderRoundTrip(h: ChunkHeader)
    ensures ParseChunkHeader(ChunkHeaderBytes(h)) == h
  {
  }

  // ---------------------------------------------------------------------
  // init_chunk_t: shared by INIT (sent) and INIT ACK (received)

  datatype InitChunk = InitChunk(
    header: ChunkHeader,
    initiateTag: Raw4,
    aRwnd: u32,
    outStreams: u16,
    inStreams: u16,
    initialTsn: Raw4)

  function InitChunkBytes(c: InitChunk): (r: seq<byte>)
    ensures |r| == InitChunkSize
    ensures r[..ChunkHeaderSize] == ChunkHeaderBytes(c.header)
    ensures r[InitiateTagOffset..InitiateTagOffset + 4] == c.initiateTag
    ensures r[InitARwndOffset..InitARwndOffset + 4] == Be32(c.aRwnd)
    ensures r[OutStreamsOffset..OutStreamsOffset + 2] == Be16(c.outStreams)
    ensures r[InStreamsOffset..InStreamsOffset + 2] == Be16(c.inStreams)
    ensures r[InitialTsnOffset..InitialTsnOffset + 4] == c.initialTsn
  {
    ChunkHeaderBytes(c.header) + c.initiateTag + Be32(c.aRwnd)
      + Be16(c.outStreams) + Be16(c.inStreams) + c.initialTsn
  }

  function ParseInitChunk(s: seq<byte>): (c: InitChunk)
    requires |s| >= InitChunkSize
    ensures InitChunkBytes(c) == s[..InitChunkSize]
  {
    Be32OfFromBe32(s[InitARwndOffset..InitARwndOffset + 4]);
    Be16OfFromBe16(s[OutStreamsOffset..OutStreamsOffset + 2]);
    Be16OfFromBe16(s[InStreamsOffset..InStreamsOffset + 2]);
    InitChunk(ParseChunkHeader(s),
              s[InitiateTagOffset..InitiateTagOffset + 4],
              FromBe32(s[InitARwndOffset..InitARwndOffset + 4]),
              FromBe16(s[OutStreamsOffset..OutStreamsOffset + 2]),
              FromBe16(s[InStreamsOffset..InStreamsOffset + 2]),
              s[InitialTsnOffset..InitialTsnOffset + 4])
  }

  lemma InitChunkRoundTrip(c: InitChunk)
    ensures ParseInitChunk(InitChunkBytes(c)) == c
  {
    ChunkHeaderRoundTrip(c.header);
    assert InitChunkBytes(c)[..ChunkHeaderSize] == ChunkHeaderBytes(c.header);
  }

  // ---------------------------------------------------------------------
  // sack_chunk_t

  datatype SackChunk = SackChunk(
    header: ChunkHeader,
    cumulativeTsn: Raw4,
    aRwnd: u32,
    numGaps: u16,
    numDups: u16)

  function SackChunkBytes(c: SackChunk): (r: seq<byte>)
    ensures |r| == SackChunkSize
    ensures r[..ChunkHeaderSize] == ChunkHeaderBytes(c.header)
    ensures r[CumulativeTsnOffset..CumulativeTsnOffset + 4] == c.cumulativeTsn
    ensures r[SackARwndOffset..SackARwndOffset + 4] == Be32(c.aRwnd)
    ensures r[NumGapsOffset..NumGapsOffset + 2] == Be16(c.numGaps)
    ensures r[NumDupsOffset..NumDupsOffset + 2] == Be16(c.numDups)
  {
    ChunkHeaderBytes(c.header) + c.cumulativeTsn + Be32(c.aRwnd)
      + Be16(c.numGaps) + Be16(c.numDups)
  }

  function ParseSackChunk(s: seq<byte>): (c: SackChunk)
    requires |s| >= SackChunkSize
    ensures SackChunkBytes(c) == s[..SackChunkSize]
  {
    Be32OfFromBe32(s[SackARwndOffset..SackARwndOffset + 4]);
    Be16OfFromBe16(s[NumGapsOffset..NumGapsOffset + 2]);
    Be16OfFromBe16(s[NumDupsOffset..NumDupsOffset + 2]);
    SackChunk(ParseChunkHeader(s),
              s[CumulativeTsnOffset..CumulativeTsnOffset + 4],
              FromBe32(s[SackARwndOffset..SackARwndOffset + 4]),
              FromBe16(s[NumGapsOffset..NumGapsOffset + 2]),
              FromBe16(s[NumDupsOffset..NumDupsOffset + 2]))
  }

  lemma SackChunkRoundTrip(c: SackChunk)
    ensures ParseSackChunk(SackChunkBytes(c)) == c
  {
    ChunkHeaderRoundTrip(c.header);
    assert SackChunkBytes(c)[..ChunkHeaderSize] == ChunkHeaderBytes(c.header);
  }

  // ---------------------------------------------------------------------
  // data_chunk_t: the header and TSN of a DATA chunk; the payload is not read

  datatype DataPrefix = DataPrefix(header: ChunkHeader, tsn: Raw4)

  function DataPrefixBytes(d: DataPrefix): (r: seq<byte>)
    ensures |r| == DataPrefixSize
    ensures r[..ChunkHeaderSize] == ChunkHeaderBytes(d.header)
    ensures r[DataTsnOffset..DataTsnOffset + 4] == d.tsn
  {
    ChunkHeaderBytes(d.header) + d.tsn
  }

  function ParseDataPrefix(s: seq<byte>): (d: DataPrefix)
    requires |s| >= DataPrefixSize
    ensures DataPrefixBytes(d) == s[..DataPrefixSize]
  {
    DataPrefix(ParseChunkHeader(s), s[DataTsnOffset..DataTsnOffset + 4])
  }

  lemma DataPrefixRoundTrip(d: DataPrefix)
    ensures ParseDataPrefix(DataPrefixBytes(d)) == d
  {
    ChunkHeaderRoundTrip(d.header);
    assert DataPrefixBytes(d)[..ChunkHeaderSize] == ChunkHeaderBytes(d.header);
  }
}
